=== FILE: README.md ===
# crypto_AI_analysis: a Dafny model of its sequential core

The repository is a small trading assistant for Binance pairs. The live application follows BTC/USDT (app/main.py:118); the fetch script's functions default to PEPE/USDT (app/analysis/fetch_historical_data.py:27).
It has three parts:

- A live application keeps the last 50 trade prices and asks an LSTM model for the next price whenever the window is full.
- A fetch script pages through years of one-minute candles and shapes several exchange responses into one combined table.
- A training script cuts closing prices into training windows and keeps a log of the data files it has already trained on.

This project models the sequential logic of those parts and proves what it promises:

| file | module | what it models |
|---|---|---|
| `wrappers.dfy` | `Wrappers` | `Option`, `Result` and the Python exceptions of the modelled code as values |
| `klines.dfy` | `Klines` | the twelve-field candle ("kline") the exchange returns |
| `price_stream.dfy` | `PriceStream` | the live price buffer of `app/main.py`: push, evict, predict on a full window, and the historical pre-fill |
| `retry.dfy` | `RetryPolicy` | `retry_request`: bounded retries on timeouts |
| `pagination.dfy` | `Pagination` | the paging loop of `fetch_historical_data` over windows of at most 1000 minutes |
| `dataset.dfy` | `Dataset` | tagging and projection of each response, and the concatenation of the combined dataset |
| `data_preparation.dfy` | `DataPreparation` | `prepare_data`: the close series of the CSV files and the sliding windows |
| `trained_files_log.dfy` | `TrainedFilesLog` | the trained-files log (`splitlines` and `"\n".join`) and the training script's steps |
| `strategy.dfy` | `Strategy` | `Strategy.calculate_entry` |

The model abstracts the outside world as follows:

- Remote calls are parameters.
  - A call that is retried is a function from attempt number to outcome: `Answered`, `Timeout`, `ApiError` or `OtherError`.
  - The paging loop's remote also takes the request number and the window asked for.
- The LSTM model and the fitted scaler are uninterpreted functions.
- The clock readings are parameters, and times are whole minutes.
- Files are values:
  - a CSV file is its name and its columns;
  - the log is `Some(text)`, or `None` when the file does not exist.
- The live buffer is a class with a `seq<real>` field. The training script is a class whose fields are the log and the list of writes made.

## Model

| member | source | states |
|---|---|---|
| PriceStream.Pushed | app/main.py:37-39 | the new price is last; the result is a suffix of buffer + [price] and loses its head exactly when the buffer already held 50 or more |
| PriceStream.PushedLength | app/main.py:37-39 | a push keeps a buffer of at most 50 within 50, and keeps the length of a buffer of 50 or more |
| PriceStream.LastWindowSnoc | app/main.py:37-39 | pushing one more price onto the last 50 prices of a sequence gives the last 50 prices of the longer sequence |
| PriceStream.PushedSuffix | app/main.py:37-39 | pushing onto the tail end of a price stream gives the tail end of the stream with that price appended |
| PriceStream.Replay | app/main.py:30-39 | after any pushes the buffer is the tail end of the old buffer followed by the pushed prices, and the newest price is last |
| PriceStream.ReplayFromEmpty | app/main.py:37-39 | from empty, after any pushes the buffer is the last 50 prices pushed, in push order (all of them while fewer than 50) |
| PriceStream.ReplayLength | app/main.py:37-39 | a buffer within capacity stays within capacity; a buffer at or beyond capacity keeps its length over any pushes |
| PriceStream.FiresFromFullWindowOn | app/main.py:37-42 | from empty, the k-th push leaves a full 50-price window iff k >= 50; before that the buffer holds all k prices |
| PriceStream.FiftyFirstPushEvictsFirst | app/main.py:37-39 | the 51st push drops exactly the first price |
| PriceStream.OverfullBufferNeverFires | app/main.py:136-138 | pre-filling a non-empty buffer with 50 closes makes it longer than 50; no later push brings it back to 50, so no prediction fires |
| PriceStream.PriceBuffer.constructor | app/main.py:27-28 | the buffer starts empty |
| PriceStream.PriceBuffer.Push | app/main.py:36-45 | the buffer becomes `Pushed(old, price)`; the model is asked once, on the whole buffer, iff it now holds exactly 50 |
| PriceStream.PriceBuffer.HandleRealtimeData | app/main.py:30-48 | a message without "p" leaves the buffer unchanged and predicts nothing; otherwise it pushes that price |
| PriceStream.PriceBuffer.ExtendWithHistory | app/main.py:135-142 | the pre-fill appends every fetched close (field 4), in order and without trimming; a failed fetch changes nothing and stops the application |
| RetryPolicy.Retry | app/analysis/fetch_historical_data.py:16-25 | never more calls than the budget allows; a failure is the plain exception, or with the correction the exchange API error |
| RetryPolicy.RetryBounds | app/analysis/fetch_historical_data.py:16-21 | every call but the last one timed out; a returned value is the last call's answer |
| RetryPolicy.RetrySucceedsAfterTimeouts | app/analysis/fetch_historical_data.py:16-21 | k timeouts then an answer, within budget: that answer after exactly k+1 calls |
| RetryPolicy.RetryExhausts | app/analysis/fetch_historical_data.py:16-25 | nothing but timeouts: the plain exception after exactly `retries` calls |
| RetryPolicy.RetryStopsOnError | app/analysis/fetch_historical_data.py:22-25 | k timeouts then any other error: no further call; with `requests` imported and line 25 as written, the same plain exception as exhaustion, and with the correction an exchange API error passed on as itself |
| RetryPolicy.ApiExceptionComesFromRemote | app/analysis/fetch_historical_data.py:22-25 | with the correction, an exchange API error reaching the caller was raised by the last call |
| RetryPolicy.RetryRequest | app/analysis/fetch_historical_data.py:12-25 | the loop computes `Retry`, and sleeps once after every timed-out call |
| RetryPolicy.RetryAsWritten | app/analysis/fetch_historical_data.py:16-25 | as written: one call at most; the first call's answer is returned, and with a positive budget any failure becomes NameError; with no budget the plain exception is raised without a call |
| RetryPolicy.MissingImportCounterexample | app/analysis/fetch_historical_data.py:19 | a timeout followed by an answer gives NameError as written, and the answer after two calls as intended |
| RetryPolicy.SwallowedApiErrorCounterexample | app/analysis/fetch_historical_data.py:22-25 | an exchange API error becomes the plain exception with `requests` imported and line 25 as written, and is passed on as itself with the correction |
| Pagination.StartMinute | app/analysis/fetch_historical_data.py:38-42 | "N years ago" is N*365 days before the clock reading; a given start time is that minute |
| Pagination.Windows | app/analysis/fetch_historical_data.py:48-59 | there are no windows iff start >= end; the first window starts at the start and the last ends at the end |
| Pagination.WindowsInRange | app/analysis/fetch_historical_data.py:48-50 | every window is non-empty, at most 1000 minutes long and inside [start, end] |
| Pagination.WindowsContiguous | app/analysis/fetch_historical_data.py:50-59 | each window ends where the next begins; all but the last are exactly 1000 minutes |
| Pagination.WindowsDisjoint | app/analysis/fetch_historical_data.py:50-59 | no two windows overlap |
| Pagination.WindowHolding | app/analysis/fetch_historical_data.py:48-59 | every minute of the range lies in some window |
| Pagination.WindowsCover | app/analysis/fetch_historical_data.py:48-59 | a minute lies in [start, end) iff some window holds it |
| Pagination.WindowsCount | app/analysis/fetch_historical_data.py:48-59 | a range of d minutes takes ceil(d / 1000) windows |
| Pagination.WindowsAt | app/analysis/fetch_historical_data.py:48-59 | window i starts i*1000 minutes after the start and ends 1000 minutes later or at the end, whichever is first |
| Pagination.FiveYearsWindows | app/analysis/fetch_historical_data.py:38-50 | with "5 years ago", clock readings in the same minute give 2628 windows; a minute apart, a 2629th one-minute window |
| Pagination.TwoThousandMinutes | app/analysis/fetch_historical_data.py:48-59 | 2000 minutes are asked for as [0, 1000) then [1000, 2000) |
| Pagination.CooldownBeforeQuiet | app/analysis/fetch_historical_data.py:60-62 | an exchange API error can only come from a request before the point where the exchange stops raising them |
| Pagination.ProgressAnswered | app/analysis/fetch_historical_data.py:50-59 | an answered window extends the answered prefix of the tiling, and the cursor moves to its end |
| Pagination.ProgressPending | app/analysis/fetch_historical_data.py:48-50 | before the end, the next window of the tiling is the one at the cursor |
| Pagination.ProgressComplete | app/analysis/fetch_historical_data.py:48 | when the loop exits, every window of the tiling has been answered |
| Pagination.RequestWindow | app/analysis/fetch_historical_data.py:52-58 | one window's request is `retry_request` with the default budget; it fails only with the plain exception or an exchange API error |
| Pagination.PaginationPass | app/analysis/fetch_historical_data.py:49-62 | one pass: a page appends the window and moves the cursor to its end; an API error keeps the cursor and asks for the same window again; any other failure stops the loop on that window |
| Pagination.PaginationLoop | app/analysis/fetch_historical_data.py:48-62 | the loop stops with the cursor at the end of the range, or before it on the plain exception; every request is an answered window, a cooldown, or the one failing request |
| Pagination.Paginate | app/analysis/fetch_historical_data.py:44-62 | the answered windows are a prefix of the tiling, all of it on success; the candles are the pages in request order; each page is its request's retry result; request n asked for window `asked[n]`; every unanswered request but a final failure got an API error and was followed by a request for the same window; a failure is the plain exception, for the next window of the tiling |
| Pagination.FetchHistoricalData | app/analysis/fetch_historical_data.py:38-71 | paging from "N years ago" (N*365 days before the first clock reading) or a given minute to the second clock reading; the windows asked for are a prefix of the range's windows, and each page is the retried answer to its own request, requests being answered in order; on success every window was answered and the result is the candle table of all pages in order; a failure is the plain exception, raised when retrying the last request, which asked for the first unanswered window; requests are numbered from 0, their count is the answered windows plus the cooldowns plus a failing last request, and every request neither answered nor the failing last one ended in an exchange API error and was followed by a request for the same window |
| Dataset.HistoricalFrame | app/analysis/fetch_historical_data.py:64-71 | one row per candle, in order, tagged "historical", holding exactly the seven kept columns with the candle's values |
| Dataset.HistoricalFrameOfPages | app/analysis/fetch_historical_data.py:52-71 | shaping the concatenated pages is concatenating the shaped pages |
| Dataset.OrderBookFrame | app/analysis/fetch_historical_data.py:77-83 | all bid rows, tagged "order_book_bid", before all ask rows, tagged "order_book_ask"; a failed request propagates |
| Dataset.Project | app/analysis/fetch_historical_data.py:113-115 | tag every record and keep exactly the listed columns, values unchanged, one row per record; a listed column a record lacks stays absent in its row |
| Dataset.FundingRateFrame | app/analysis/fetch_historical_data.py:85-105 | empty table on a failed request, an empty answer or a missing fundingTime/fundingRate column; otherwise every record projected onto fundingTime, fundingRate and "type", tagged "funding_rate" |
| Dataset.AggregateTradesFrame | app/analysis/fetch_historical_data.py:107-115 | the records projected onto T, "type", p and q, tagged "trades", iff T, p and q are all present; otherwise KeyError naming a missing one; a failed request propagates |
| Dataset.Present | app/analysis/fetch_historical_data.py:129-130 | keeps exactly the wanted columns that are present |
| Dataset.PresentIsOrdered | app/analysis/fetch_historical_data.py:129-130 | the kept columns keep their fixed order |
| Dataset.LiquidationsFrame | app/analysis/fetch_historical_data.py:117-139 | empty on failure or empty answer; empty iff none of time, price, origQty, side is present; otherwise the records projected onto those present, in that order, then "type", tagged "liquidations" |
| Dataset.AddColumns | app/analysis/fetch_historical_data.py:146 | the column union keeps the earlier columns first and adds exactly the new ones: only columns not yet present, each once, so the result holds every column of either list |
| Dataset.Concat | app/analysis/fetch_historical_data.py:146 | the concatenated table has exactly the columns of its parts |
| Dataset.ConcatRows | app/analysis/fetch_historical_data.py:146 | concatenation keeps every table's rows, whole and in argument order |
| Dataset.CombinedDataset | app/analysis/fetch_historical_data.py:150-158 | a table iff the candles, the order book and the trades all succeed; its rows are those of candles, order book, funding, trades, liquidations in that order; the failures of the candles, order book and trades propagate in that order |
| DataPreparation.CloseSeries | app/analysis/data_preparation.py:17-20 | every price of the series comes from the close column of a file not trained on |
| DataPreparation.NewFiles | app/analysis/data_preparation.py:17-20 | at most one name per file, and never the name of a file already trained on |
| DataPreparation.PrepareData | app/analysis/data_preparation.py:6-33 | the files used are the new ones with a close column; one pair per window with a successor, max(0, len - n) of them; pair i is the normalised window at i and the price after it; ValueError iff new files hold no price |
| DataPreparation.CloseSeriesAppend | app/analysis/data_preparation.py:17-20 | the series and the used files of two listings are those of each, one after the other |
| DataPreparation.NewFilesAreTheContributors | app/analysis/data_preparation.py:17-20 | a file is used iff it was not trained on and has a close column |
| DataPreparation.NothingNewAfterAllTrained | app/analysis/train_lstm.py:29-38 | once every file of the folder is in the log, a run finds no new file and no price |
| DataPreparation.OfflineWindowIsLiveBuffer | app/analysis/data_preparation.py:29-31 | window i of a series is what the live buffer holds after the first i+50 prices were pushed from empty |
| DataPreparation.LiveWindowUnscaled | app/main.py:43 | a live window holding a price above 1 is never the scaled training window it corresponds to, for a scaler mapping into [0, 1] |
| DataPreparation.ScaledLiveWindowIsTrainingWindow | app/analysis/data_preparation.py:24-31 | the live buffer passed through the training scaler is exactly the training window |
| DataPreparation.Bind | app/analysis/train_lstm.py:33 | a call binds exactly when the positional arguments fit, every keyword is declared, not already given positionally and not repeated, and the first parameter is bound; it then binds the positional parameters plus the keywords; anything else is TypeError |
| DataPreparation.TrainingCallAsWritten | app/analysis/train_lstm.py:33 | the script's call is refused with TypeError by the declared signature, and under the signature it expects binds all three parameters |
| TrainedFilesLog.FirstBreak | app/analysis/train_lstm.py:20 | the index of the first line break, with no break before it |
| TrainedFilesLog.SplitLines | app/analysis/train_lstm.py:20 | no line `splitlines` yields holds a line break; only the empty text has no line |
| TrainedFilesLog.JoinLines | app/analysis/train_lstm.py:26 | the joined text starts with the first name, and is one line iff there is at most one name and it is one line |
| TrainedFilesLog.LoadTrainedFilesLog | app/analysis/train_lstm.py:17-21 | a missing log loads as the empty set; otherwise exactly the set of its lines |
| TrainedFilesLog.SplitJoin | app/analysis/train_lstm.py:17-26 | splitting joined break-free names whose last is not empty gives the names back |
| TrainedFilesLog.LoadWhatWasSaved | app/analysis/train_lstm.py:17-26 | a set of non-empty break-free names saved in any order loads back as the same set |
| TrainedFilesLog.EmptyNameSavedLastIsLost | app/analysis/train_lstm.py:24-26 | an empty name saved last is lost on loading |
| TrainedFilesLog.SaveTrainedFilesLog | app/analysis/train_lstm.py:24-26 | the text is the names joined by newlines, each name exactly once, in the order chosen; non-empty one-line names load back as exactly that set |
| TrainedFilesLog.Workspace.constructor | app/analysis/train_lstm.py:29 | a run starts from the log on disk, with nothing written yet |
| TrainedFilesLog.Workspace.Train | app/analysis/train_lstm.py:29-81 | the files trained on are the new ones; preparing the data fails iff the new files hold no price; no new file, or that failure: nothing written; otherwise the model is saved and only then the log is rewritten with old names ∪ new files, each once, joined by newlines, which loads back as that set when the names are plain |
| Strategy.CalculateEntry | app/decision/strategy.py:3-11 | entry = price, stop-loss = price * (100 - s) / 100, take-profit = price * (100 + t) / 100 |
| Strategy.LevelsOrdered | app/decision/strategy.py:5-8 | for a non-negative price and percentages, stop-loss <= entry <= take-profit; a stop of at most 100 percent is not below zero |
| Strategy.ZeroPercentageIsThePrice | app/decision/strategy.py:5-6 | a zero percentage puts its level at the price |
| Strategy.PercentagesRecovered | app/decision/strategy.py:5-6 | for a non-zero price, each percentage is the level's distance to the entry in percent of it |
| Strategy.ApplicationLevels | app/main.py:160 | the application's 2 % / 4 % call gives price * 0.98 and price * 1.04 |

## Left out

- Network, websocket, market-data, news and Reddit calls are not part of this model. Remote calls are parameters.
- Model loading, building, fitting and saving are not modelled. Prediction is an uninterpreted function, and saving the model is one recorded write.
- Technical indicators and sentiment analysis are not part of this model (`technical_indicators.py`, `analyze_social_data.py`, `lstm_model.py`, `ai_model.py`).
- Parsing is not modelled: prices are already numbers (`float(data['p'])`, `float(data[4])`, the client's strings).
- A start time is not read from text. Any start time that contains "ago" is `YearsAgo(N)`, where N is its first word, whatever unit follows: "2 days ago UTC" is `YearsAgo(2)`, two times 365 days (app/analysis/fetch_historical_data.py:38-40). Any other start time is `At(minute)`; the `pd.to_datetime` parsing of such strings, and the ValueError of a first word that is not a number, are not modelled.
- Times are whole minutes and "now" is a parameter. Sub-minute datetimes and `strftime` formatting are not modelled.
- Sleeps are not modelled. `RetryRequest` counts the delays it would sleep, and `Paginate` counts its cooldowns.
- The credential check of `fetch_historical_data` (its ValueError when the keys are missing) is not modelled.
- The timestamp column keeps its millisecond integer; its conversion to a datetime is not modelled. A missing value in a concatenated table is an absent cell, not a NaN of some dtype.
- Writing the combined CSV and creating its directory are not modelled; the combined table is the result.
- The threading of the websocket callback and the busy-wait of `main` are not modelled.
- Exceptions other than the modelled ones are not modelled: a non-numeric price, a failing prediction, unreadable files.
- `Pagination.Paginate`: the corrected loop, in which exchange API errors reach the paging loop, would spin for as long as the exchange keeps raising them. The model requires that from some request on (`quietAfter`) it no longer does, so that the loop terminates. In the code as written such errors never reach the loop (see Findings).
- `Pagination.FetchHistoricalData`: the two clock readings are whole minutes. The source's readings differ by microseconds; with "5 years ago" the range is a whole number of windows, so the source asks for one more window, microseconds long, which the model shows only when the readings fall in different minutes (`Pagination.FiveYearsWindows`).
- Python floats are modelled as exact reals; rounding is not modelled. `Strategy.ApplicationLevels` gives exactly price * 0.98 and price * 1.04, which binary floating point need not.
- `DataPreparation.PrepareData`: the fitted scaler is not returned. The window length is a natural number; negative lengths, which Python would accept, are not modelled.
- `DataPreparation.PrepareData`: with no new file at all, the model returns empty training data and no file names. The scaler as written would raise ValueError on the empty series. Returning empty data is what makes the training script's "nothing new" exit (train_lstm.py:36-38) reachable.
- `DataPreparation.PrepareData`: the folder listing is a sequence in a fixed order. `glob` order is left open by the source.
- `Dataset.AggregateTradesFrame`: the KeyError names the first missing column, not pandas' message listing all of them.
- `TrainedFilesLog.Workspace.Train`: a failure while fitting or saving the model is not modelled. Such a failure would leave the log unchanged.

## Findings

| source | as written | input that shows it | evidently intended | confidence | as-written member | corrected member |
|---|---|---|---|---|---|---|
| app/analysis/fetch_historical_data.py:19 | the handler names `requests.exceptions.ReadTimeout`, but the module never imports `requests`, so the first failed call raises NameError | a call that times out once and then answers | a timeout is retried after the delay, and the answer is returned | high, not executed | RetryPolicy.MissingImportCounterexample | RetryPolicy.RetrySucceedsAfterTimeouts |
| app/analysis/fetch_historical_data.py:25 | even with `requests` imported (the previous row), every way of giving up raises a plain Exception, so the BinanceAPIException handler at lines 60-62 (cooldown, then the same window again) can never run | a page request answered with an exchange API error | the API error reaches the paging loop, which cools down and asks for the same window again | medium, not executed | RetryPolicy.SwallowedApiErrorCounterexample | Pagination.Paginate |
| app/analysis/train_lstm.py:33 | `prepare_data` is called with `exclude_files` and unpacked into four names, but it declares only `data_folder` and `sequence_length` (data_preparation.py:6) and returns three values | any run of the training script | `prepare_data` skips the files already logged and also returns the names of the files it used | high, not executed | DataPreparation.TrainingCallAsWritten | DataPreparation.PrepareData |
| app/main.py:43 | the live handler feeds the model the raw price buffer, but the model was trained on windows scaled into [0, 1] (data_preparation.py:24-25), and the scaler is not saved with the model | a live window holding a price above 1 | the live window is passed through the training scaler before predicting (and the prediction scaled back before it is printed as a price) | medium, not executed | DataPreparation.LiveWindowUnscaled | DataPreparation.ScaledLiveWindowIsTrainingWindow |

=== FILE: data_preparation.dfy ===
/**
 * `prepare_data`: read every CSV file of the data folder, keep the closing
 * prices of the files that have a "close" column, normalise them with a
 * scaler fitted on them, and cut the normalised series into training pairs:
 * a window of `sequenceLength` consecutive prices and the price right after it.
 *
 * The folder is the sequence of its files in listing order; a file is its name
 * and its columns. The scaler is the parameter `fit`: fitted on the series, it
 * yields the function applied to every price.
 *
 * The function as written takes no list of files to skip and returns three
 * values, while the training script calls it with `exclude_files` and unpacks
 * four. `PrepareData` is the contract the script relies on: files already
 * trained on are skipped and the names of the files used are returned too.
 */
module DataPreparation {
  import opened Wrappers
  import PriceStream

  /** One CSV file: its name and, per column header, the column's values. */
  datatype CsvFile = CsvFile(name: string, columns: map<string, seq<real>>)

  /** The training pairs, and the names of the files they were drawn from. */
  datatype Prepared = Prepared(x: seq<seq<real>>, y: seq<real>, newFiles: seq<string>)

  /** A file feeds the series when it was not trained on before and has a close column. */
  predicate Contributes(f: CsvFile, exclude: set<string>)
  {
    f.name !in exclude && "close" in f.columns
  }

  /** The close values of the contributing files, one file after another. */
  function CloseSeries(files: seq<CsvFile>, exclude: set<string>): (series: seq<real>)
    // every price comes from the close column of a contributing file
    ensures forall x :: x in series ==>
      exists i :: 0 <= i < |files| && Contributes(files[i], exclude) && x in files[i].columns["close"]
    decreases |files|
  {
    if files == [] then []
    else
      var front, f := files[..|files| - 1], files[|files| - 1];
      var series := CloseSeries(front, exclude) + (if Contributes(f, exclude) then f.columns["close"] else []);
      assert forall i :: 0 <= i < |front| ==> front[i] == files[i];
      series
  }

  /** The names of the contributing files, in listing order. */
  function NewFiles(files: seq<CsvFile>, exclude: set<string>): (names: seq<string>)
    // at most one name per file, and never one already trained on
    ensures |names| <= |files|
    ensures forall n :: n in names ==> n !in exclude
    decreases |files|
  {
    if files == [] then []
    else
      var f := files[|files| - 1];
      NewFiles(files[..|files| - 1], exclude) + (if Contributes(f, exclude) then [f.name] else [])
  }

  /** Every price passed through the fitted scaler. */
  function Normalised(scale: real -> real, series: seq<real>): seq<real>
  {
    seq(|series|, i requires 0 <= i < |series| => scale(series[i]))
  }

  /**
   * The two loops of `prepare_data`. With no new file there is nothing to
   * train on; new files holding no price at all make the scaler fail.
   */
  method PrepareData(files: seq<CsvFile>, sequenceLength: nat, exclude: set<string>,
                     fit: seq<real> -> (real -> real))
    returns (r: Result<Prepared, Failure>)
    // the files used are the new ones with a close column, in listing order
    ensures r.Ok? ==> r.value.newFiles == NewFiles(files, exclude)
    ensures r.Err? <==> CloseSeries(files, exclude) == [] && NewFiles(files, exclude) != []
    ensures r.Err? ==> r.error == ValueError
    // one pair per window that has a successor ...
    ensures r.Ok? ==>
      var series := CloseSeries(files, exclude);
      |r.value.x| == |r.value.y| == if |series| > sequenceLength then |series| - sequenceLength else 0
    // ... pair i being the window at i of the normalised series and the price after it
    ensures r.Ok? ==>
      var series := CloseSeries(files, exclude);
      var data := Normalised(fit(series), series);
      forall i :: 0 <= i < |r.value.x| ==>
        r.value.x[i] == data[i..i + sequenceLength] && r.value.y[i] == data[i + sequenceLength]
  {
    var series: seq<real> := [];
    var newFiles: seq<string> := [];
    for k := 0 to |files|
      invariant series == CloseSeries(files[..k], exclude)
      invariant newFiles == NewFiles(files[..k], exclude)
    {
      assert files[..k + 1][..k] == files[..k];
      var f := files[k];
      if Contributes(f, exclude) {
        series := series + f.columns["close"];
        newFiles := newFiles + [f.name];
      }
    }
    assert files[..|files|] == files;
    if series == [] {
      if newFiles == [] {
        return Ok(Prepared([], [], []));
      }
      return Err(ValueError);
    }

    var data := Normalised(fit(series), series);
    var x: seq<seq<real>> := [];
    var y: seq<real> := [];
    var i := 0;
    while i < |data| - sequenceLength
      invariant 0 <= i && |x| == |y| == i
      invariant i == 0 || i <= |data| - sequenceLength
      invariant forall j :: 0 <= j < i ==> x[j] == data[j..j + sequenceLength] && y[j] == data[j + sequenceLength]
      decreases |data| - sequenceLength - i
    {
      x, y := x + [data[i..i + sequenceLength]], y + [data[i + sequenceLength]];
      i := i + 1;
    }
    r := Ok(Prepared(x, y, newFiles));
  }

  /** Splitting the folder listing in two splits the series the same way. */
  lemma {:induction false} CloseSeriesAppend(a: seq<CsvFile>, b: seq<CsvFile>, exclude: set<string>)
    ensures CloseSeries(a + b, exclude) == CloseSeries(a, exclude) + CloseSeries(b, exclude)
    ensures NewFiles(a + b, exclude) == NewFiles(a, exclude) + NewFiles(b, exclude)
    decreases |b|
  {
    if b != [] {
      var front := b[..|b| - 1];
      assert (a + b)[..|a + b| - 1] == a + front;
      var last := b[|b| - 1];
      assert (a + b)[|a + b| - 1] == last;
      CloseSeriesAppend(a, front, exclude);
      var tail := if Contributes(last, exclude) then last.columns["close"] else [];
      assert CloseSeries(a + b, exclude) == CloseSeries(a + front, exclude) + tail;
      assert CloseSeries(b, exclude) == CloseSeries(front, exclude) + tail;
    } else {
      assert a + b == a;
    }
  }

  /** Once every file of the folder has been trained on, a new run finds nothing. */
  lemma {:induction false} NothingNewAfterAllTrained(files: seq<CsvFile>, exclude: set<string>)
    requires forall f :: f in files ==> f.name in exclude
    ensures CloseSeries(files, exclude) == [] && NewFiles(files, exclude) == []
    decreases |files|
  {
    if files != [] {
      assert files[|files| - 1] in files;
      forall f | f in files[..|files| - 1] ensures f.name in exclude {
        assert f in files;
      }
      NothingNewAfterAllTrained(files[..|files| - 1], exclude);
    }
  }

  /** A file is used iff it was not trained on and has a close column. */
  lemma {:induction false} NewFilesAreTheContributors(files: seq<CsvFile>, exclude: set<string>, name: string)
    ensures name in NewFiles(files, exclude) <==> exists f :: f in files && f.name == name && Contributes(f, exclude)
    decreases |files|
  {
    if files != [] {
      var front, last := files[..|files| - 1], files[|files| - 1];
      assert files == front + [last];
      NewFilesAreTheContributors(front, exclude, name);
      if name in NewFiles(files, exclude) && name !in NewFiles(front, exclude) {
        assert last.name == name && Contributes(last, exclude);
      }
    }
  }

  /**
   * The offline windows and the live buffer agree: with windows of the live
   * length, window i of a series is what the live buffer holds after the
   * series' first i + SeqLength prices were pushed into it, one at a time,
   * from empty.
   */
  lemma OfflineWindowIsLiveBuffer(series: seq<real>, i: nat)
    requires i + PriceStream.SeqLength <= |series|
    ensures series[i..i + PriceStream.SeqLength] == PriceStream.Replay([], series[..i + PriceStream.SeqLength])
  {
    PriceStream.ReplayFromEmpty(series[..i + PriceStream.SeqLength]);
  }

  /** Scaling commutes with taking a slice. */
  lemma NormalisedSlice(scale: real -> real, series: seq<real>, lo: nat, hi: nat)
    requires lo <= hi <= |series|
    ensures Normalised(scale, series)[lo..hi] == Normalised(scale, series[lo..hi])
  {
  }

  /**
   * The live application feeds the model its raw price buffer, while the
   * model was trained on windows of the scaled series. With the scaler mapping
   * into [0, 1], a live window holding any price above 1 is never the
   * training window it corresponds to.
   */
  lemma LiveWindowUnscaled(scale: real -> real, series: seq<real>, i: nat, j: nat)
    requires i <= j < i + PriceStream.SeqLength <= |series|
    requires 0.0 <= scale(series[j]) <= 1.0 < series[j]
    ensures Normalised(scale, series)[i..i + PriceStream.SeqLength] != PriceStream.Replay([], series[..i + PriceStream.SeqLength])
  {
    var window := series[i..i + PriceStream.SeqLength];
    OfflineWindowIsLiveBuffer(series, i);
    NormalisedSlice(scale, series, i, i + PriceStream.SeqLength);
    assert Normalised(scale, window)[j - i] != window[j - i];
  }

  /**
   * Passing the live buffer through the scaler fitted on the training series
   * gives exactly the training window: the input the model was trained on.
   */
  lemma ScaledLiveWindowIsTrainingWindow(scale: real -> real, series: seq<real>, i: nat)
    requires i + PriceStream.SeqLength <= |series|
    ensures Normalised(scale, series)[i..i + PriceStream.SeqLength]
         == Normalised(scale, PriceStream.Replay([], series[..i + PriceStream.SeqLength]))
  {
    OfflineWindowIsLiveBuffer(series, i);
    NormalisedSlice(scale, series, i, i + PriceStream.SeqLength);
  }

  /** The parameters `prepare_data` declares, in order; all but the first have a default. */
  const DeclaredParameters: seq<string> := ["data_folder", "sequence_length"]
  /** The parameters the training script's call expects it to declare. */
  const ExpectedParameters: seq<string> := ["data_folder", "sequence_length", "exclude_files"]

  /** No name is given twice. */
  predicate Distinct(names: seq<string>)
  {
    forall i, j :: 0 <= i < j < |names| ==> names[i] != names[j]
  }

  /**
   * Binding a call's arguments to declared parameters as Python does: the
   * `positional` first parameters, then each keyword. Too many positional
   * arguments, an unknown keyword, a parameter given twice or a missing first
   * parameter is a TypeError; otherwise the call binds exactly the positional
   * parameters and the keywords.
   */
  function Bind(declared: seq<string>, positional: nat, keywords: seq<string>): (r: Result<set<string>, Failure>)
    ensures r.Err? ==> r.error == TypeError
    ensures r.Ok? <==>
      && positional <= |declared|
      && (forall k :: k in keywords ==> k in declared && k !in declared[..positional])
      && Distinct(keywords)
      && (|declared| > 0 ==> positional > 0 || declared[0] in keywords)
    ensures r.Ok? ==> r.value == (set p | p in declared[..positional]) + (set k | k in keywords)
  {
    if positional > |declared| then Err(TypeError)
    else
      var given := set p | p in declared[..positional];
      assert forall k :: k in given <==> k in declared[..positional];
      assert positional > 0 ==> declared[0] in given by {
        if positional > 0 {
          assert declared[..positional][0] == declared[0];
        }
      }
      match BindKeywords(declared, given, keywords)
      case Ok(bound) => if |declared| > 0 && declared[0] !in bound then Err(TypeError) else Ok(bound)
      case Err(e) => Err(e)
  }

  /** The keywords, one at a time: each must be declared and not bound yet. */
  function BindKeywords(declared: seq<string>, bound: set<string>, keywords: seq<string>): (r: Result<set<string>, Failure>)
    ensures r.Err? ==> r.error == TypeError
    ensures r.Ok? <==> (forall k :: k in keywords ==> k in declared && k !in bound) && Distinct(keywords)
    ensures r.Ok? ==> r.value == bound + (set k | k in keywords)
    decreases |keywords|
  {
    if keywords == [] then Ok(bound)
    else if keywords[0] !in declared || keywords[0] in bound then Err(TypeError)
    else
      var rest := keywords[1..];
      assert keywords == [keywords[0]] + rest;
      assert forall k :: k in keywords <==> k == keywords[0] || k in rest;
      assert Distinct(keywords) <==> keywords[0] !in rest && Distinct(rest) by {
        if Distinct(keywords) {
          forall i | 0 <= i < |rest| ensures rest[i] != keywords[0] {
            assert rest[i] == keywords[i + 1];
          }
          forall i, j | 0 <= i < j < |rest| ensures rest[i] != rest[j] {
            assert rest[i] == keywords[i + 1] && rest[j] == keywords[j + 1];
          }
        }
        if keywords[0] !in rest && Distinct(rest) {
          forall i, j | 0 <= i < j < |keywords| ensures keywords[i] != keywords[j] {
            assert keywords[j] == rest[j - 1];
            if i > 0 {
              assert keywords[i] == rest[i - 1];
            }
          }
        }
      }
      BindKeywords(declared, bound + {keywords[0]}, rest)
  }

  /**
   * The training script's call `prepare_data(folder, sequence_length=...,
   * exclude_files=...)`: refused with TypeError by the function as written,
   * accepted by the signature the script expects.
   */
  lemma TrainingCallAsWritten()
    ensures Bind(DeclaredParameters, 1, ["sequence_length", "exclude_files"]) == Err(TypeError)
    ensures Bind(ExpectedParameters, 1, ["sequence_length", "exclude_files"])
         == Ok({"data_folder", "sequence_length", "exclude_files"})
  {
    var k := "exclude_files";
    assert k !in DeclaredParameters by {
      assert DeclaredParameters[0] != k && DeclaredParameters[1] != k;
    }
    var keywords := ["sequence_length", "exclude_files"];
    assert ExpectedParameters[..1] == ["data_folder"];
    assert Distinct(keywords) by {
      assert |keywords[0]| != |keywords[1]|;
    }
    forall k | k in keywords
      ensures k in ExpectedParameters && k !in ExpectedParameters[..1]
    {
      assert ExpectedParameters[1] == keywords[0] && ExpectedParameters[2] == keywords[1];
      assert |k| != |"data_folder"|;
    }
    var r := Bind(ExpectedParameters, 1, keywords);
    assert r.Ok?;
    assert (set p | p in ExpectedParameters[..1]) == {"data_folder"};
    assert (set k | k in keywords) == {"sequence_length", "exclude_files"};
    assert r.value == {"data_folder"} + {"sequence_length", "exclude_files"};
    assert {"data_folder"} + {"sequence_length", "exclude_files"} == {"data_folder", "sequence_length", "exclude_files"};
    assert r == Ok({"data_folder", "sequence_length", "exclude_files"});
  }
}

=== FILE: dataset.dfy ===
/**
 * Shaping of the exchange responses into tagged tables, and their
 * concatenation into the combined dataset.
 *
 * A table is a list of column names and a list of rows; a row maps column
 * names to cells, and a column a row lacks is an absent ("NaN") cell, which is
 * how a table built from records with differing keys, or a concatenation of
 * tables with differing columns, fills the gaps.
 */
module Dataset {
  import opened Wrappers
  import opened Klines

  datatype Cell = Num(x: real) | Millis(ms: int) | Text(s: string)

  type Row = map<string, Cell>

  datatype Frame = Frame(columns: seq<string>, rows: seq<Row>)

  /** The table with no columns and no rows. */
  const EmptyFrame: Frame := Frame([], [])

  // ---------------------------------------------------------------- candles

  const HistoricalColumns: seq<string> := ["timestamp", "type", "open", "high", "low", "close", "volume"]

  /** One candle, tagged "historical" and reduced to the seven kept columns. */
  function KlineRow(k: Kline): Row
  {
    map["timestamp" := Millis(k.openTime), "type" := Text("historical"), "open" := Num(k.open),
        "high" := Num(k.high), "low" := Num(k.low), "close" := Num(k.close), "volume" := Num(k.volume)]
  }

  /** The candle table: one row per kline, in order, each tagged and projected to the seven columns. */
  function HistoricalFrame(klines: seq<Kline>): (f: Frame)
    ensures f.columns == HistoricalColumns && |f.rows| == |klines|
    ensures forall i :: 0 <= i < |klines| ==>
      f.rows[i].Keys == {"timestamp", "type", "open", "high", "low", "close", "volume"}
      && f.rows[i]["type"] == Text("historical")
      && f.rows[i]["timestamp"] == Millis(klines[i].openTime)
      && f.rows[i]["open"] == Num(klines[i].open) && f.rows[i]["high"] == Num(klines[i].high)
      && f.rows[i]["low"] == Num(klines[i].low) && f.rows[i]["close"] == Num(klines[i].close)
      && f.rows[i]["volume"] == Num(klines[i].volume)
  {
    Frame(HistoricalColumns, seq(|klines|, i requires 0 <= i < |klines| => KlineRow(klines[i])))
  }

  /** Shaping commutes with concatenating pages: each page can be shaped on its own. */
  lemma HistoricalFrameOfPages(a: seq<Kline>, b: seq<Kline>)
    ensures HistoricalFrame(a + b).rows == HistoricalFrame(a).rows + HistoricalFrame(b).rows
  {
    assert forall i :: 0 <= i < |a| + |b| ==> HistoricalFrame(a + b).rows[i] == KlineRow((a + b)[i]);
  }

  // ------------------------------------------------------------- order book

  datatype Level = Level(price: real, quantity: real)

  datatype OrderBook = OrderBook(bids: seq<Level>, asks: seq<Level>)

  const OrderBookColumns: seq<string> := ["price", "quantity", "type"]

  function LevelRow(level: Level, side: string): Row
  {
    map["price" := Num(level.price), "quantity" := Num(level.quantity), "type" := Text(side)]
  }

  function LevelRows(levels: seq<Level>, side: string): seq<Row>
  {
    seq(|levels|, i requires 0 <= i < |levels| => LevelRow(levels[i], side))
  }

  /**
   * The order-book table: every bid level tagged "order_book_bid", then every
   * ask level tagged "order_book_ask". A failed request propagates.
   */
  function OrderBookFrame(fetched: Result<OrderBook, Failure>): (r: Result<Frame, Failure>)
    ensures fetched.Err? ==> r == Err(fetched.error)
    ensures fetched.Ok? ==> r.Ok? && r.value.columns == OrderBookColumns
    ensures fetched.Ok? ==> |r.value.rows| == |fetched.value.bids| + |fetched.value.asks|
    ensures fetched.Ok? ==> forall i :: 0 <= i < |fetched.value.bids| ==>
      r.value.rows[i] == LevelRow(fetched.value.bids[i], "order_book_bid")
    ensures fetched.Ok? ==> forall j :: 0 <= j < |fetched.value.asks| ==>
      r.value.rows[|fetched.value.bids| + j] == LevelRow(fetched.value.asks[j], "order_book_ask")
  {
    match fetched
    case Err(e) => Err(e)
    case Ok(book) =>
      Ok(Frame(OrderBookColumns, LevelRows(book.bids, "order_book_bid") + LevelRows(book.asks, "order_book_ask")))
  }

  // ------------------------------------------------- record-shaped responses

  /** The columns of a table built from records: every key some record has. */
  function ColumnsOf(records: seq<Row>): set<string>
  {
    set r, c | r in records && c in r :: c
  }

  /** `df["type"] = tag` followed by `df[columns]`: tag every record, keep only the listed columns. */
  function Project(records: seq<Row>, columns: seq<string>, tag: string): (f: Frame)
    ensures f.columns == columns && |f.rows| == |records|
    ensures forall i :: 0 <= i < |records| ==> f.rows[i].Keys <= set c | c in columns
    // a listed column the record lacks stays absent (NaN); only "type" is always filled in
    ensures forall i, c :: 0 <= i < |records| && c != "type" ==>
      (c in f.rows[i] <==> c in columns && c in records[i])
    ensures forall i, c :: 0 <= i < |records| && c in columns && c != "type" && c in records[i] ==>
      c in f.rows[i] && f.rows[i][c] == records[i][c]
    ensures "type" in columns ==> forall i :: 0 <= i < |records| ==> "type" in f.rows[i] && f.rows[i]["type"] == Text(tag)
  {
    Frame(columns, seq(|records|, i requires 0 <= i < |records| => ProjectRow(records[i], columns, tag)))
  }

  function ProjectRow(record: Row, columns: seq<string>, tag: string): Row
  {
    var tagged := record["type" := Text(tag)];
    map c | c in columns && c in tagged :: tagged[c]
  }

  /**
   * The funding-rate table. Every failure degrades to the empty table: a
   * failed request, an empty answer, and a missing column (its KeyError is
   * caught by the same handler).
   */
  function FundingRateFrame(fetched: Result<seq<Row>, Failure>): (f: Frame)
    ensures fetched.Err? || fetched.value == [] ==> f == EmptyFrame
    ensures fetched.Ok? && fetched.value != [] ==>
      (f == EmptyFrame <==> "fundingTime" !in ColumnsOf(fetched.value) || "fundingRate" !in ColumnsOf(fetched.value))
    ensures f != EmptyFrame ==> f.columns == ["fundingTime", "fundingRate", "type"] && |f.rows| == |fetched.value|
    ensures f != EmptyFrame ==> f == Project(fetched.value, ["fundingTime", "fundingRate", "type"], "funding_rate")
  {
    match fetched
    case Err(_) => EmptyFrame
    case Ok(records) =>
      if records == [] then EmptyFrame
      else
        var columns := ColumnsOf(records);
        if "fundingTime" !in columns || "fundingRate" !in columns then EmptyFrame  // KeyError, caught
        else Project(records, ["fundingTime", "fundingRate", "type"], "funding_rate")
  }

  /**
   * The aggregate-trades table. A failed request propagates, and so does a
   * missing column (KeyError), which is what an empty answer produces.
   */
  function AggregateTradesFrame(fetched: Result<seq<Row>, Failure>): (r: Result<Frame, Failure>)
    ensures fetched.Err? ==> r == Err(fetched.error)
    ensures fetched.Ok? ==> (r.Ok? <==> "T" in ColumnsOf(fetched.value) && "p" in ColumnsOf(fetched.value) && "q" in ColumnsOf(fetched.value))
    ensures fetched.Ok? && r.Err? ==> r.error.KeyError? && r.error.key in ["T", "p", "q"] && r.error.key !in ColumnsOf(fetched.value)
    ensures r.Ok? ==> r.value.columns == ["T", "type", "p", "q"] && |r.value.rows| == |fetched.value|
    ensures r.Ok? ==> r.value == Project(fetched.value, ["T", "type", "p", "q"], "trades")
  {
    match fetched
    case Err(e) => Err(e)
    case Ok(records) =>
      var columns := ColumnsOf(records);
      if "T" !in columns then Err(KeyError("T"))
      else if "p" !in columns then Err(KeyError("p"))
      else if "q" !in columns then Err(KeyError("q"))
      else Ok(Project(records, ["T", "type", "p", "q"], "trades"))
  }

  const LiquidationColumns: seq<string> := ["time", "price", "origQty", "side"]

  /** The elements of `wanted` that are columns, in the order of `wanted`. */
  function Present(wanted: seq<string>, columns: set<string>): (kept: seq<string>)
    ensures forall c :: c in kept <==> c in wanted && c in columns
    ensures |kept| <= |wanted|
  {
    if wanted == [] then []
    else (if wanted[0] in columns then [wanted[0]] else []) + Present(wanted[1..], columns)
  }

  /**
   * The liquidations table: the liquidation columns the answer has, in their
   * fixed order, then "type". An empty answer, an answer with none of those
   * columns, and a failed request all give the empty table.
   */
  function LiquidationsFrame(fetched: Result<seq<Row>, Failure>): (f: Frame)
    ensures fetched.Err? || fetched.value == [] ==> f == EmptyFrame
    ensures fetched.Ok? && fetched.value != [] ==>
      (f == EmptyFrame <==> forall c :: c in LiquidationColumns ==> c !in ColumnsOf(fetched.value))
    ensures f != EmptyFrame ==>
      f.columns == Present(LiquidationColumns, ColumnsOf(fetched.value)) + ["type"] && |f.rows| == |fetched.value|
    ensures f != EmptyFrame ==>
      f == Project(fetched.value, Present(LiquidationColumns, ColumnsOf(fetched.value)) + ["type"], "liquidations")
  {
    match fetched
    case Err(_) => EmptyFrame
    case Ok(records) =>
      if records == [] then EmptyFrame
      else
        var available := Present(LiquidationColumns, ColumnsOf(records));
        if available != [] then
          assert available[0] in available;
          Project(records, available + ["type"], "liquidations")
        else EmptyFrame
  }

  /** `Present` keeps its input's order: it is an order-preserving selection. */
  lemma {:induction false} PresentIsOrdered(wanted: seq<string>, columns: set<string>, i: nat, j: nat)
    requires i < j < |Present(wanted, columns)|
    ensures exists a, b :: 0 <= a < b < |wanted| && wanted[a] == Present(wanted, columns)[i] && wanted[b] == Present(wanted, columns)[j]
  {
    var rest := Present(wanted[1..], columns);
    if wanted[0] in columns {
      assert Present(wanted, columns) == [wanted[0]] + rest;
      if i == 0 {
        var b :| 0 <= b < |wanted[1..]| && wanted[1..][b] == rest[j - 1] by {
          assert rest[j - 1] in rest;
        }
        assert wanted[b + 1] == Present(wanted, columns)[j];
      } else {
        PresentIsOrdered(wanted[1..], columns, i - 1, j - 1);
        var a, b :| 0 <= a < b < |wanted[1..]| && wanted[1..][a] == rest[i - 1] && wanted[1..][b] == rest[j - 1];
        assert wanted[a + 1] == Present(wanted, columns)[i] && wanted[b + 1] == Present(wanted, columns)[j];
      }
    } else {
      assert Present(wanted, columns) == rest;
      PresentIsOrdered(wanted[1..], columns, i, j);
      var a, b :| 0 <= a < b < |wanted[1..]| && wanted[1..][a] == rest[i] && wanted[1..][b] == rest[j];
      assert wanted[a + 1] == Present(wanted, columns)[i] && wanted[b + 1] == Present(wanted, columns)[j];
    }
  }

  // ---------------------------------------------------------- concatenation

  /** `acc` followed by the columns of `more` it does not have yet, in order of first appearance. */
  function AddColumns(acc: seq<string>, more: seq<string>): (r: seq<string>)
    ensures forall c :: c in r <==> c in acc || c in more
    ensures acc <= r
    // only columns not yet present are added, each once
    ensures forall i :: |acc| <= i < |r| ==> r[i] !in acc
    ensures forall i, j :: |acc| <= i < j < |r| ==> r[i] != r[j]
    decreases |more|
  {
    if more == [] then acc
    else
      var acc' := if more[0] in acc then acc else acc + [more[0]];
      var r := AddColumns(acc', more[1..]);
      assert forall i :: |acc| <= i < |acc'| ==> r[i] == more[0] && more[0] !in acc;
      r
  }

  /** `pd.concat(frames)`: rows one table after another, columns the union in order of first appearance. */
  function Concat(frames: seq<Frame>): (f: Frame)
    ensures forall c :: c in f.columns <==> exists k :: 0 <= k < |frames| && c in frames[k].columns
    decreases |frames|
  {
    if frames == [] then EmptyFrame
    else
      var front := Concat(frames[..|frames| - 1]);
      var last := frames[|frames| - 1];
      assert forall k :: 0 <= k < |frames| - 1 ==> frames[..|frames| - 1][k] == frames[k];
      Frame(AddColumns(front.columns, last.columns), front.rows + last.rows)
  }

  /** Concatenation keeps every table's rows, whole and in argument order. */
  lemma {:induction false} ConcatRows(a: seq<Frame>, b: seq<Frame>)
    ensures Concat(a + b).rows == Concat(a).rows + Concat(b).rows
    decreases |b|
  {
    if b == [] {
      assert a + b == a;
    } else {
      var b' := b[..|b| - 1];
      assert (a + b)[..|a + b| - 1] == a + b';
      ConcatRows(a, b');
    }
  }

  /** The rows of one table standing alone. */
  lemma ConcatSingle(f: Frame)
    ensures Concat([f]).rows == f.rows
  {
    assert [f][..0] == [];
  }

  /**
   * The combined dataset written by the fetch script: candles, order book,
   * funding rates, trades and liquidations, in that order. The order book
   * and the trades are the only slices whose failures propagate; the
   * candles' failure is raised first.
   */
  function CombinedDataset(historical: Result<Frame, Failure>, book: Result<OrderBook, Failure>,
                           funding: Result<seq<Row>, Failure>, trades: Result<seq<Row>, Failure>,
                           liquidations: Result<seq<Row>, Failure>): (r: Result<Frame, Failure>)
    ensures r.Ok? <==> historical.Ok? && OrderBookFrame(book).Ok? && AggregateTradesFrame(trades).Ok?
    ensures historical.Err? ==> r == Err(historical.error)
    ensures historical.Ok? && OrderBookFrame(book).Err? ==> r == Err(OrderBookFrame(book).error)
    ensures historical.Ok? && OrderBookFrame(book).Ok? && AggregateTradesFrame(trades).Err? ==>
      r == Err(AggregateTradesFrame(trades).error)
    ensures r.Ok? ==> (r.value.rows == historical.value.rows + OrderBookFrame(book).value.rows
      + FundingRateFrame(funding).rows + AggregateTradesFrame(trades).value.rows + LiquidationsFrame(liquidations).rows)
  {
    if historical.Err? then Err(historical.error)
    else
      match OrderBookFrame(book)
      case Err(e) => Err(e)
      case Ok(bookFrame) =>
        var fundingFrame := FundingRateFrame(funding);
        match AggregateTradesFrame(trades)
        case Err(e) => Err(e)
        case Ok(tradesFrame) =>
          var slices := [historical.value, bookFrame, fundingFrame, tradesFrame, LiquidationsFrame(liquidations)];
          CombinedRows(slices);
          Ok(Concat(slices))
  }

  lemma CombinedRows(s: seq<Frame>)
    requires |s| == 5
    ensures Concat(s).rows == s[0].rows + s[1].rows + s[2].rows + s[3].rows + s[4].rows
  {
    assert s == [s[0]] + [s[1]] + [s[2]] + [s[3]] + [s[4]];
    ConcatRows([s[0]] + [s[1]] + [s[2]] + [s[3]], [s[4]]);
    ConcatRows([s[0]] + [s[1]] + [s[2]], [s[3]]);
    ConcatRows([s[0]] + [s[1]], [s[2]]);
    ConcatRows([s[0]], [s[1]]);
    ConcatSingle(s[0]);
    ConcatSingle(s[1]);
    ConcatSingle(s[2]);
    ConcatSingle(s[3]);
    ConcatSingle(s[4]);
  }
}

=== FILE: klines.dfy ===
/**
 * One candlestick ("kline") as the exchange returns it: twelve positional
 * fields. Field 0 is the opening minute's timestamp in milliseconds and
 * field 4 is the closing price; prices are given as numbers (the text-to-float
 * conversion done by the client is not part of this model).
 */
module Klines {

  datatype Kline = Kline(
    openTime: int,
    open: real,
    high: real,
    low: real,
    close: real,
    volume: real,
    closeTime: int,
    quoteAssetVolume: real,
    numberOfTrades: int,
    takerBuyBaseAssetVolume: real,
    takerBuyQuoteAssetVolume: real,
    ignore: real)
}

=== FILE: pagination.dfy ===
/**
 * `fetch_historical_data`: walk a time cursor from the start time to "now" in
 * windows of at most `PageMinutes` minutes, fetching each window's candles
 * through `retry_request`, and shape the result into the candle table.
 *
 * Times are whole minutes; "now" is a parameter. The remote is given as
 * `remote(n, w)(a)`: how attempt `a` of the n-th `retry_request` of this run,
 * asking for window `w`, ends.
 */
module Pagination {
  import opened Wrappers
  import opened Klines
  import opened RetryPolicy
  import opened Dataset

  /** The largest window one request asks for. */
  const PageMinutes: int := 1000
  const MinutesPerDay: int := 1440
  /** Seconds slept after an exchange API error before the same window is asked for again. */
  const CooldownSeconds: nat := 60

  /**
   * The start of the range: any text containing "ago" is read as N years
   * (N*365 days before now), N being its first word whatever unit follows,
   * so "2 days ago UTC" is `YearsAgo(2)`; any other text is a given minute.
   */
  datatype StartTime = YearsAgo(years: int) | At(minute: int)

  /** The first minute asked for, given the clock reading `now` taken for it. */
  function StartMinute(start: StartTime, now: int): (m: int)
    ensures start.YearsAgo? ==> now - m == start.years * 365 * MinutesPerDay
    ensures start.YearsAgo? && start.years >= 0 ==> m <= now
    ensures start.At? ==> m == start.minute
  {
    match start
    case YearsAgo(years) => now - years * 365 * MinutesPerDay
    case At(minute) => minute
  }

  /** A requested window: the minutes lo <= t < hi. */
  datatype Window = Window(lo: int, hi: int)

  function Min(a: int, b: int): int { if a < b then a else b }

  /**
   * The windows the loop asks for when the cursor starts at `cursor` and no
   * page fails. They span the range: there are none iff the range is empty,
   * the first starts at the start and the last ends at the end.
   */
  function Windows(cursor: int, end: int): (ws: seq<Window>)
    ensures ws == [] <==> cursor >= end
    ensures ws != [] ==> ws[0].lo == cursor && ws[|ws| - 1].hi == end
    decreases end - cursor
  {
    if cursor >= end then []
    else
      var hi := Min(cursor + PageMinutes, end);
      [Window(cursor, hi)] + Windows(hi, end)
  }

  /** Each window is non-empty, at most PageMinutes long and inside the range. */
  lemma {:induction false} WindowsInRange(cursor: int, end: int)
    ensures forall w :: w in Windows(cursor, end) ==>
      cursor <= w.lo < w.hi <= end && w.hi - w.lo <= PageMinutes
    decreases end - cursor
  {
    if cursor < end {
      var hi := Min(cursor + PageMinutes, end);
      WindowsInRange(hi, end);
      assert Windows(cursor, end) == [Window(cursor, hi)] + Windows(hi, end);
    }
  }

  /**
   * Each window ends where the next one begins, and every window but the last
   * is exactly PageMinutes long.
   */
  lemma {:induction false} WindowsContiguous(cursor: int, end: int)
    ensures forall i :: 0 <= i < |Windows(cursor, end)| - 1 ==>
      Windows(cursor, end)[i].hi == Windows(cursor, end)[i + 1].lo
      && Windows(cursor, end)[i].hi - Windows(cursor, end)[i].lo == PageMinutes
    decreases end - cursor
  {
    if cursor < end {
      var hi := Min(cursor + PageMinutes, end);
      WindowsContiguous(hi, end);
      var ws, rest := Windows(cursor, end), Windows(hi, end);
      assert ws == [Window(cursor, hi)] + rest;
      forall i | 0 <= i < |ws| - 1
        ensures ws[i].hi == ws[i + 1].lo && ws[i].hi - ws[i].lo == PageMinutes
      {
        if i == 0 {
          assert rest != [] && ws[1] == rest[0];
        } else {
          assert ws[i] == rest[i - 1] && ws[i + 1] == rest[i];
        }
      }
    }
  }

  /** No two windows overlap: every earlier window ends before every later one starts. */
  lemma {:induction false} WindowsDisjoint(cursor: int, end: int, i: nat, j: nat)
    requires i < j < |Windows(cursor, end)|
    ensures Windows(cursor, end)[i].hi <= Windows(cursor, end)[j].lo
    decreases end - cursor
  {
    var hi := Min(cursor + PageMinutes, end);
    var ws, rest := Windows(cursor, end), Windows(hi, end);
    assert ws == [Window(cursor, hi)] + rest;
    if i > 0 {
      WindowsDisjoint(hi, end, i - 1, j - 1);
    } else {
      WindowsInRange(hi, end);
      assert rest[j - 1] in rest;
    }
  }

  /** The index of the window holding a minute of the range. */
  lemma {:induction false} WindowHolding(cursor: int, end: int, t: int) returns (i: nat)
    requires cursor <= t < end
    ensures i < |Windows(cursor, end)| && Windows(cursor, end)[i].lo <= t < Windows(cursor, end)[i].hi
    decreases end - cursor
  {
    var hi := Min(cursor + PageMinutes, end);
    assert Windows(cursor, end) == [Window(cursor, hi)] + Windows(hi, end);
    if t < hi {
      i := 0;
    } else {
      var k := WindowHolding(hi, end, t);
      i := k + 1;
    }
  }

  /** The windows cover exactly the minutes of the range: a minute is in the range iff some window holds it. */
  lemma WindowsCover(cursor: int, end: int, t: int)
    ensures (cursor <= t < end) <==>
      exists i :: 0 <= i < |Windows(cursor, end)| && Windows(cursor, end)[i].lo <= t < Windows(cursor, end)[i].hi
  {
    var ws := Windows(cursor, end);
    if cursor <= t < end {
      var i := WindowHolding(cursor, end, t);
      assert ws[i].lo <= t < ws[i].hi;
    } else {
      WindowsInRange(cursor, end);
      forall i | 0 <= i < |ws|
        ensures !(ws[i].lo <= t < ws[i].hi)
      {
        assert ws[i] in ws;
      }
    }
  }

  /** A range of d > 0 minutes takes ceil(d / PageMinutes) windows. */
  lemma {:induction false} WindowsCount(cursor: int, end: int)
    ensures |Windows(cursor, end)| == if cursor < end then (end - cursor + PageMinutes - 1) / PageMinutes else 0
    decreases end - cursor
  {
    if cursor < end {
      var hi := Min(cursor + PageMinutes, end);
      WindowsCount(hi, end);
    }
  }

  /** Window i starts i pages after the start and is a full page unless the range ends first. */
  lemma {:induction false} WindowsAt(cursor: int, end: int, i: nat)
    requires i < |Windows(cursor, end)|
    ensures Windows(cursor, end)[i] == Window(cursor + i * PageMinutes, Min(cursor + (i + 1) * PageMinutes, end))
    decreases i
  {
    var hi := Min(cursor + PageMinutes, end);
    assert Windows(cursor, end) == [Window(cursor, hi)] + Windows(hi, end);
    if i > 0 {
      WindowsAt(hi, end, i - 1);
    }
  }

  /** 2000 minutes take two windows, [0, 1000) then [1000, 2000). */
  lemma TwoThousandMinutes()
    ensures Windows(0, 2000) == [Window(0, 1000), Window(1000, 2000)]
  {
    assert Windows(2000, 2000) == [];
    assert Windows(1000, 2000) == [Window(1000, 2000)];
  }

  /**
   * The default "5 years ago" spans 2,628,000 minutes, a whole number of
   * windows: read in the same minute, the two clock readings give 2628 full
   * windows; a minute apart, one more, one-minute window is asked for.
   */
  lemma FiveYearsWindows(startedAt: int, now: int)
    requires now - startedAt in {0, 1}
    ensures |Windows(StartMinute(YearsAgo(5), startedAt), now)| == 2628 + (now - startedAt)
    ensures now == startedAt + 1 ==> Windows(StartMinute(YearsAgo(5), startedAt), now)[2628] == Window(startedAt, now)
  {
    var start := StartMinute(YearsAgo(5), startedAt);
    WindowsCount(start, now);
    if now == startedAt + 1 {
      WindowsAt(start, now, 2628);
    }
  }

  /** All pages' candles, one page after another. */
  function Flatten(pages: seq<seq<Kline>>): seq<Kline>
    decreases |pages|
  {
    if pages == [] then [] else Flatten(pages[..|pages| - 1]) + pages[|pages| - 1]
  }

  /** An exchange API error can only come from a request before `quietAfter`. */
  lemma CooldownBeforeQuiet(remote: (nat, Window) -> nat -> CallOutcome<seq<Kline>>, quietAfter: nat, n: nat, w: Window)
    requires forall n: nat, w: Window, a: nat :: quietAfter <= n ==> !remote(n, w)(a).ApiError?
    requires Retry(remote(n, w), DefaultRetries, true, 0).result == Err(ApiException)
    ensures n < quietAfter
  {
    ApiExceptionComesFromRemote(remote(n, w), DefaultRetries, 0);
    var last := Retry(remote(n, w), DefaultRetries, true, 0).calls - 1;
    assert remote(n, w)(last).ApiError?;
  }

  /** Appending a page appends its candles. */
  lemma FlattenSnoc(pages: seq<seq<Kline>>, page: seq<Kline>)
    ensures Flatten(pages + [page]) == Flatten(pages) + page
  {
    assert (pages + [page])[..|pages|] == pages;
  }

  /** Page i is what retrying the request that answered window i returned. */
  ghost predicate PageOf(remote: (nat, Window) -> nat -> CallOutcome<seq<Kline>>,
                         windows: seq<Window>, pages: seq<seq<Kline>>, served: seq<nat>, i: nat)
    requires i < |windows| == |pages| == |served|
  {
    Retry(remote(served[i], windows[i]), DefaultRetries, true, 0).result == Ok(pages[i])
  }

  /**
   * The state of the pagination loop after some passes: `windows` are the
   * first windows of the tiling, the cursor stands at the start of the rest,
   * every answered window was answered by its own earlier request, in order,
   * and `collected` holds their candles.
   */
  ghost predicate Progress(remote: (nat, Window) -> nat -> CallOutcome<seq<Kline>>, start: int, end: int,
                           cursor: int, collected: seq<Kline>, windows: seq<Window>, pages: seq<seq<Kline>>,
                           served: seq<nat>, requests: nat)
  {
    && |windows| <= |Windows(start, end)|
    && windows == Windows(start, end)[..|windows|]
    && Windows(cursor, end) == Windows(start, end)[|windows|..]
    && |pages| == |windows| == |served|
    && (forall i :: 0 <= i < |windows| ==> PageOf(remote, windows, pages, served, i))
    && (forall i, j :: 0 <= i < j < |served| ==> served[i] < served[j])
    && (forall i :: 0 <= i < |served| ==> served[i] < requests)
    && collected == Flatten(pages)
  }

  /** The first window at the cursor, when the cursor is before the end. */
  function NextWindow(cursor: int, end: int): Window
  {
    Window(cursor, Min(cursor + PageMinutes, end))
  }

  /** A page for the window at the cursor: the window is answered and the cursor moves to its end. */
  lemma ProgressAnswered(remote: (nat, Window) -> nat -> CallOutcome<seq<Kline>>, start: int, end: int,
                         cursor: int, collected: seq<Kline>, windows: seq<Window>, pages: seq<seq<Kline>>,
                         served: seq<nat>, requests: nat, page: seq<Kline>)
    requires Progress(remote, start, end, cursor, collected, windows, pages, served, requests)
    requires cursor < end
    requires Retry(remote(requests, NextWindow(cursor, end)), DefaultRetries, true, 0).result == Ok(page)
    ensures Progress(remote, start, end, NextWindow(cursor, end).hi, collected + page,
                     windows + [NextWindow(cursor, end)], pages + [page], served + [requests], requests + 1)
  {
    var all, k, window := Windows(start, end), |windows|, NextWindow(cursor, end);
    assert Windows(cursor, end) == [window] + Windows(window.hi, end);
    assert all[k..] == [window] + Windows(window.hi, end);
    assert all[k] == window && all[k + 1..] == Windows(window.hi, end);
    assert windows + [window] == all[..k + 1];
    FlattenSnoc(pages, page);
    var windows', pages', served' := windows + [window], pages + [page], served + [requests];
    forall i | 0 <= i < |windows'|
      ensures PageOf(remote, windows', pages', served', i)
    {
      if i < |windows| {
        assert PageOf(remote, windows, pages, served, i);
      }
    }
  }

  /** A request that answered nothing leaves everything but the request count as it was. */
  lemma ProgressUnanswered(remote: (nat, Window) -> nat -> CallOutcome<seq<Kline>>, start: int, end: int,
                           cursor: int, collected: seq<Kline>, windows: seq<Window>, pages: seq<seq<Kline>>,
                           served: seq<nat>, requests: nat)
    requires Progress(remote, start, end, cursor, collected, windows, pages, served, requests)
    ensures Progress(remote, start, end, cursor, collected, windows, pages, served, requests + 1)
  {
  }

  /** At the end of the range every window of the tiling has been answered. */
  lemma ProgressComplete(remote: (nat, Window) -> nat -> CallOutcome<seq<Kline>>, start: int, end: int,
                         cursor: int, collected: seq<Kline>, windows: seq<Window>, pages: seq<seq<Kline>>,
                         served: seq<nat>, requests: nat)
    requires Progress(remote, start, end, cursor, collected, windows, pages, served, requests)
    requires cursor >= end
    ensures windows == Windows(start, end)
  {
  }

  /** Every answered window's page is what retrying its request returned. */
  lemma ProgressPages(remote: (nat, Window) -> nat -> CallOutcome<seq<Kline>>, start: int, end: int,
                      cursor: int, collected: seq<Kline>, windows: seq<Window>, pages: seq<seq<Kline>>,
                      served: seq<nat>, requests: nat)
    requires Progress(remote, start, end, cursor, collected, windows, pages, served, requests)
    ensures forall i :: 0 <= i < |windows| ==>
      Retry(remote(served[i], windows[i]), DefaultRetries, true, 0).result == Ok(pages[i])
  {
    forall i | 0 <= i < |windows|
      ensures Retry(remote(served[i], windows[i]), DefaultRetries, true, 0).result == Ok(pages[i])
    {
      assert PageOf(remote, windows, pages, served, i);
    }
  }

  /** Before the end of the range the next window of the tiling is the one at the cursor. */
  lemma ProgressPending(remote: (nat, Window) -> nat -> CallOutcome<seq<Kline>>, start: int, end: int,
                        cursor: int, collected: seq<Kline>, windows: seq<Window>, pages: seq<seq<Kline>>,
                        served: seq<nat>, requests: nat)
    requires Progress(remote, start, end, cursor, collected, windows, pages, served, requests)
    requires cursor < end
    ensures |windows| < |Windows(start, end)| && Windows(start, end)[|windows|] == NextWindow(cursor, end)
  {
    assert Windows(cursor, end) == [NextWindow(cursor, end)] + Windows(NextWindow(cursor, end).hi, end);
  }

  /** One `retry_request` for a window: the page, or the plain exception, or an exchange API error. */
  method RequestWindow(remote: (nat, Window) -> nat -> CallOutcome<seq<Kline>>, n: nat, window: Window)
    returns (result: Result<seq<Kline>, Failure>)
    ensures result == Retry(remote(n, window), DefaultRetries, true, 0).result
    ensures result.Err? ==> result.error == RetriesExhausted || result.error == ApiException
  {
    var calls, waits;
    result, calls, waits := RetryRequest(remote(n, window), DefaultRetries, true);
  }

  /** Answered window i was asked for by the request that answered it. */
  ghost predicate ServedAsked(windows: seq<Window>, served: seq<nat>, asked: seq<Window>, i: nat)
    requires i < |windows| == |served|
  {
    served[i] < |asked| && asked[served[i]] == windows[i]
  }

  /**
   * Request n, when it answered nothing, ended in an exchange API error and
   * the request after it, if any, asked for the same window again.
   */
  ghost predicate Repeated(remote: (nat, Window) -> nat -> CallOutcome<seq<Kline>>,
                           served: seq<nat>, asked: seq<Window>, n: nat)
    requires n < |asked|
  {
    n !in served ==>
      Retry(remote(n, asked[n]), DefaultRetries, true, 0).result == Err(ApiException)
      && (n + 1 < |asked| ==> asked[n + 1] == asked[n])
  }

  /**
   * What the requests of the pagination loop asked for: `asked[n]` is the
   * window of request n. An answered request asked for its answered window;
   * every other request so far ended in an exchange API error and was
   * followed by a request for the same window. The latest request, when it
   * answered nothing, asked for the window at the cursor, which is still
   * before the end.
   */
  ghost predicate Asked(remote: (nat, Window) -> nat -> CallOutcome<seq<Kline>>, cursor: int, end: int,
                        windows: seq<Window>, served: seq<nat>, asked: seq<Window>)
  {
    && |windows| == |served|
    && (forall i :: 0 <= i < |served| ==> ServedAsked(windows, served, asked, i))
    && (forall n :: 0 <= n < |asked| ==> Repeated(remote, served, asked, n))
    && (|asked| > 0 && |asked| - 1 !in served ==> cursor < end && asked[|asked| - 1] == NextWindow(cursor, end))
  }

  /** A request answered the window at the cursor. */
  lemma AskedAnswered(remote: (nat, Window) -> nat -> CallOutcome<seq<Kline>>, cursor: int, end: int,
                      windows: seq<Window>, served: seq<nat>, asked: seq<Window>)
    requires Asked(remote, cursor, end, windows, served, asked)
    requires cursor < end
    ensures Asked(remote, NextWindow(cursor, end).hi, end, windows + [NextWindow(cursor, end)],
                  served + [|asked|], asked + [NextWindow(cursor, end)])
  {
    var window, n := NextWindow(cursor, end), |asked|;
    var windows', served', asked' := windows + [window], served + [n], asked + [window];
    forall i | 0 <= i < |served'|
      ensures ServedAsked(windows', served', asked', i)
    {
      if i < |served| {
        assert ServedAsked(windows, served, asked, i);
      }
    }
    forall m | 0 <= m < |asked'|
      ensures Repeated(remote, served', asked', m)
    {
      if m < n {
        assert Repeated(remote, served, asked, m);
        assert m in served' <==> m in served;
      } else {
        assert m in served';
      }
    }
  }

  /** A request for the window at the cursor ended in an exchange API error. */
  lemma AskedCooldown(remote: (nat, Window) -> nat -> CallOutcome<seq<Kline>>, cursor: int, end: int,
                      windows: seq<Window>, served: seq<nat>, asked: seq<Window>)
    requires Asked(remote, cursor, end, windows, served, asked)
    requires cursor < end
    requires Retry(remote(|asked|, NextWindow(cursor, end)), DefaultRetries, true, 0).result == Err(ApiException)
    ensures Asked(remote, cursor, end, windows, served, asked + [NextWindow(cursor, end)])
  {
    var window, n := NextWindow(cursor, end), |asked|;
    var asked' := asked + [window];
    forall i | 0 <= i < |served|
      ensures ServedAsked(windows, served, asked', i)
    {
      assert ServedAsked(windows, served, asked, i);
    }
    forall m | 0 <= m < |asked'|
      ensures Repeated(remote, served, asked', m)
    {
      if m < n {
        assert Repeated(remote, served, asked, m);
      }
    }
  }

  /**
   * A request for the window at the cursor failed, which ends the loop: every
   * earlier request that answered nothing ended in an exchange API error and
   * was followed by a request for the same window.
   */
  lemma AskedFailed(remote: (nat, Window) -> nat -> CallOutcome<seq<Kline>>, cursor: int, end: int,
                    windows: seq<Window>, served: seq<nat>, asked: seq<Window>)
    requires Asked(remote, cursor, end, windows, served, asked)
    requires cursor < end
    ensures var asked' := asked + [NextWindow(cursor, end)];
      forall i :: 0 <= i < |served| ==> served[i] < |asked| && asked'[served[i]] == windows[i]
    ensures var asked' := asked + [NextWindow(cursor, end)];
      forall n :: 0 <= n < |asked| && n !in served ==>
        Retry(remote(n, asked'[n]), DefaultRetries, true, 0).result == Err(ApiException) && asked'[n + 1] == asked'[n]
  {
    var asked' := asked + [NextWindow(cursor, end)];
    forall i | 0 <= i < |served|
      ensures served[i] < |asked| && asked'[served[i]] == windows[i]
    {
      assert ServedAsked(windows, served, asked, i);
    }
    forall n | 0 <= n < |asked| && n !in served
      ensures Retry(remote(n, asked'[n]), DefaultRetries, true, 0).result == Err(ApiException)
      ensures asked'[n + 1] == asked'[n]
    {
      assert Repeated(remote, served, asked, n);
    }
  }

  /**
   * The loop reached the end of the range: every request that answered
   * nothing ended in an exchange API error and was followed by a request for
   * the same window.
   */
  lemma AskedComplete(remote: (nat, Window) -> nat -> CallOutcome<seq<Kline>>, cursor: int, end: int,
                      windows: seq<Window>, served: seq<nat>, asked: seq<Window>)
    requires Asked(remote, cursor, end, windows, served, asked)
    requires cursor >= end
    ensures forall i :: 0 <= i < |served| ==> served[i] < |asked| && asked[served[i]] == windows[i]
    ensures forall n :: 0 <= n < |asked| && n !in served ==>
      Retry(remote(n, asked[n]), DefaultRetries, true, 0).result == Err(ApiException)
      && n + 1 < |asked| && asked[n + 1] == asked[n]
  {
    forall i | 0 <= i < |served|
      ensures served[i] < |asked| && asked[served[i]] == windows[i]
    {
      assert ServedAsked(windows, served, asked, i);
    }
    forall n | 0 <= n < |asked| && n !in served
      ensures Retry(remote(n, asked[n]), DefaultRetries, true, 0).result == Err(ApiException)
      ensures n + 1 < |asked| && asked[n + 1] == asked[n]
    {
      assert Repeated(remote, served, asked, n);
    }
  }

  /**
   * The state in which the pagination loop stops: at the end of the range,
   * or on a failure for the window at the cursor, after which `asked` has one
   * request more than the loop state covers.
   */
  ghost predicate Finished(remote: (nat, Window) -> nat -> CallOutcome<seq<Kline>>, start: int, end: int,
                           cursor: int, collected: seq<Kline>, windows: seq<Window>, pages: seq<seq<Kline>>,
                           served: seq<nat>, requests: nat, cooldowns: nat, asked: seq<Window>,
                           failure: Option<Failure>)
  {
    && Progress(remote, start, end, cursor, collected, windows, pages, served, requests)
    && |asked| == requests
    && match failure
       case None =>
         && cursor >= end && requests == |windows| + cooldowns
         && Asked(remote, cursor, end, windows, served, asked)
       case Some(e) =>
         && cursor < end && requests == |windows| + cooldowns + 1
         && Asked(remote, cursor, end, windows, served, asked[..requests - 1])
         && asked[requests - 1] == NextWindow(cursor, end)
         && Retry(remote(requests - 1, NextWindow(cursor, end)), DefaultRetries, true, 0).result == Err(e)
         && e == RetriesExhausted
  }

  /** The loop reached the end of the range: every window was answered. */
  lemma OutcomeComplete(remote: (nat, Window) -> nat -> CallOutcome<seq<Kline>>, start: int, end: int,
                        cursor: int, collected: seq<Kline>, windows: seq<Window>, pages: seq<seq<Kline>>,
                        served: seq<nat>, requests: nat, cooldowns: nat, asked: seq<Window>)
    requires Finished(remote, start, end, cursor, collected, windows, pages, served, requests, cooldowns, asked, None)
    ensures |pages| == |windows| == |served|
    ensures windows == Windows(start, end) && collected == Flatten(pages)
    ensures forall i :: 0 <= i < |windows| ==>
      Retry(remote(served[i], windows[i]), DefaultRetries, true, 0).result == Ok(pages[i])
    ensures forall i, j :: 0 <= i < j < |served| ==> served[i] < served[j]
    ensures forall i :: 0 <= i < |served| ==> served[i] < requests
    ensures requests == |windows| + cooldowns && |asked| == requests
    ensures forall i :: 0 <= i < |served| ==> asked[served[i]] == windows[i]
    ensures forall n :: 0 <= n < requests && n !in served ==>
      Retry(remote(n, asked[n]), DefaultRetries, true, 0).result == Err(ApiException)
      && n + 1 < requests && asked[n + 1] == asked[n]
  {
    ProgressPages(remote, start, end, cursor, collected, windows, pages, served, requests);
    ProgressComplete(remote, start, end, cursor, collected, windows, pages, served, requests);
    AskedComplete(remote, cursor, end, windows, served, asked);
  }

  /** The loop stopped on a failure for the first window not yet answered. */
  lemma OutcomeFailed(remote: (nat, Window) -> nat -> CallOutcome<seq<Kline>>, start: int, end: int,
                      cursor: int, collected: seq<Kline>, windows: seq<Window>, pages: seq<seq<Kline>>,
                      served: seq<nat>, requests: nat, cooldowns: nat, asked: seq<Window>, e: Failure)
    requires Finished(remote, start, end, cursor, collected, windows, pages, served, requests, cooldowns, asked, Some(e))
    ensures |pages| == |windows| == |served|
    ensures windows <= Windows(start, end)
    ensures forall i :: 0 <= i < |windows| ==>
      Retry(remote(served[i], windows[i]), DefaultRetries, true, 0).result == Ok(pages[i])
    ensures forall i, j :: 0 <= i < j < |served| ==> served[i] < served[j]
    ensures forall i :: 0 <= i < |served| ==> served[i] < requests
    ensures e == RetriesExhausted && |windows| < |Windows(start, end)| && requests > 0
    ensures Retry(remote(requests - 1, Windows(start, end)[|windows|]), DefaultRetries, true, 0).result == Err(RetriesExhausted)
    ensures requests == |windows| + cooldowns + 1 && |asked| == requests
    ensures forall i :: 0 <= i < |served| ==> asked[served[i]] == windows[i]
    ensures asked[requests - 1] == Windows(start, end)[|windows|]
    ensures forall n :: 0 <= n < requests - 1 && n !in served ==>
      Retry(remote(n, asked[n]), DefaultRetries, true, 0).result == Err(ApiException)
      && asked[n + 1] == asked[n]
  {
    ProgressPages(remote, start, end, cursor, collected, windows, pages, served, requests);
    ProgressPending(remote, start, end, cursor, collected, windows, pages, served, requests);
    AskedFailed(remote, cursor, end, windows, served, asked[..requests - 1]);
    assert asked == asked[..requests - 1] + [NextWindow(cursor, end)];
  }

  /**
   * The pagination loop over [start, end). Each pass asks `retry_request` for
   * the window at the cursor; a page advances the cursor to the window's end,
   * an exchange API error leaves it where it is (the same window is asked for
   * again after the cooldown), and any other failure ends the whole fetch.
   *
   * Out-parameters: `klines`, all candles in request order, or the failure;
   * `windows`, the windows answered, in order; `pages`, their candles;
   * `served`, which request answered each; `requests`, the number of
   * `retry_request` calls; `cooldowns`, how many of them ended in an exchange
   * API error; `asked`, the window each request asked for.
   *
   * The corrected loop spins for as long as the exchange keeps answering
   * with API errors; the model assumes that from request `quietAfter` on it
   * no longer does.
   */
  method Paginate(start: int, end: int, remote: (nat, Window) -> nat -> CallOutcome<seq<Kline>>, quietAfter: nat)
    returns (klines: Result<seq<Kline>, Failure>, windows: seq<Window>, pages: seq<seq<Kline>>,
             served: seq<nat>, requests: nat, cooldowns: nat, ghost asked: seq<Window>)
    requires forall n: nat, w: Window, a: nat :: quietAfter <= n ==> !remote(n, w)(a).ApiError?
    ensures |pages| == |windows| == |served|
    // the windows answered are the first ones of the tiling of [start, end) ...
    ensures windows <= Windows(start, end)
    // ... all of them on success, and the candles are their pages in request order
    ensures klines.Ok? ==> windows == Windows(start, end) && klines.value == Flatten(pages)
    // each page is what retrying its request returned, and requests are answered in order
    ensures forall i :: 0 <= i < |windows| ==>
      Retry(remote(served[i], windows[i]), DefaultRetries, true, 0).result == Ok(pages[i])
    ensures forall i, j :: 0 <= i < j < |served| ==> served[i] < served[j]
    ensures forall i :: 0 <= i < |served| ==> served[i] < requests
    // a failure is the plain exception, for the window after the answered ones, on the last request
    ensures klines.Err? ==> klines.error == RetriesExhausted && |windows| < |Windows(start, end)| && requests > 0
    ensures klines.Err? ==>
      Retry(remote(requests - 1, Windows(start, end)[|windows|]), DefaultRetries, true, 0).result == Err(RetriesExhausted)
    ensures requests == |windows| + cooldowns + (if klines.Err? then 1 else 0)
    // request n asked for `asked[n]`: an answered request for its window ...
    ensures |asked| == requests
    ensures forall i :: 0 <= i < |served| ==> asked[served[i]] == windows[i]
    ensures klines.Err? ==> asked[requests - 1] == Windows(start, end)[|windows|]
    // ... and every other request but a failing last one ended in an exchange
    // API error, after which the next request asked for the same window again
    ensures forall n :: 0 <= n < requests && n !in served && (klines.Ok? || n < requests - 1) ==>
      Retry(remote(n, asked[n]), DefaultRetries, true, 0).result == Err(ApiException)
      && n + 1 < requests && asked[n + 1] == asked[n]
  {
    var collected, failure, cursor;
    failure, collected, windows, pages, served, requests, cooldowns, asked, cursor := PaginationLoop(start, end, remote, quietAfter);
    if failure.None? {
      OutcomeComplete(remote, start, end, cursor, collected, windows, pages, served, requests, cooldowns, asked);
      klines := Ok(collected);
    } else {
      OutcomeFailed(remote, start, end, cursor, collected, windows, pages, served, requests, cooldowns, asked,
                    failure.value);
      klines := Err(failure.value);
    }
  }

  /** The loop of `Paginate`, which stops in a `Finished` state. */
  method PaginationLoop(start: int, end: int, remote: (nat, Window) -> nat -> CallOutcome<seq<Kline>>, quietAfter: nat)
    returns (failure: Option<Failure>, collected: seq<Kline>, windows: seq<Window>, pages: seq<seq<Kline>>,
             served: seq<nat>, requests: nat, cooldowns: nat, ghost asked: seq<Window>, cursor: int)
    requires forall n: nat, w: Window, a: nat :: quietAfter <= n ==> !remote(n, w)(a).ApiError?
    ensures Finished(remote, start, end, cursor, collected, windows, pages, served, requests, cooldowns, asked, failure)
    // it stops at the end of the range, or before it on the plain exception
    ensures failure.None? <==> cursor >= end
    ensures failure.Some? ==> failure.value == RetriesExhausted
    ensures requests == |windows| + cooldowns + (if failure.Some? then 1 else 0)
  {
    cursor := start;
    collected, failure := [], None;
    windows, pages, served, requests, cooldowns, asked := [], [], [], 0, 0, [];
    while cursor < end
      invariant Progress(remote, start, end, cursor, collected, windows, pages, served, requests)
      invariant Asked(remote, cursor, end, windows, served, asked)
      invariant |asked| == requests == |windows| + cooldowns
      invariant failure.None?
      decreases end - cursor, if requests < quietAfter then quietAfter - requests else 0
    {
      failure, cursor, collected, windows, pages, served, requests, cooldowns, asked :=
        PaginationPass(start, end, remote, quietAfter, cursor, collected, windows, pages, served, requests, cooldowns, asked);
      if failure.Some? {
        return;
      }
    }
  }

  /**
   * One pass of the pagination loop: one `retry_request` for the window at
   * the cursor. A page advances the cursor to the window's end, an exchange
   * API error keeps it where it is (the same window is asked for again after
   * the cooldown), and any other failure stops the loop.
   */
  method PaginationPass(start: int, end: int, remote: (nat, Window) -> nat -> CallOutcome<seq<Kline>>, quietAfter: nat,
                        cursor: int, collected: seq<Kline>, windows: seq<Window>, pages: seq<seq<Kline>>,
                        served: seq<nat>, requests: nat, cooldowns: nat, ghost asked: seq<Window>)
    returns (failure: Option<Failure>, cursor': int, collected': seq<Kline>, windows': seq<Window>,
             pages': seq<seq<Kline>>, served': seq<nat>, requests': nat, cooldowns': nat, ghost asked': seq<Window>)
    requires forall n: nat, w: Window, a: nat :: quietAfter <= n ==> !remote(n, w)(a).ApiError?
    requires cursor < end
    requires Progress(remote, start, end, cursor, collected, windows, pages, served, requests)
    requires Asked(remote, cursor, end, windows, served, asked)
    requires |asked| == requests == |windows| + cooldowns
    ensures failure.None? ==>
      && Progress(remote, start, end, cursor', collected', windows', pages', served', requests')
      && Asked(remote, cursor', end, windows', served', asked')
      && |asked'| == requests' == |windows'| + cooldowns'
    // the pass makes progress: the cursor advances, or a cooldown uses up one of the noisy requests
    ensures failure.None? ==> cursor < cursor' || (cursor' == cursor && requests < quietAfter && requests' == requests + 1)
    ensures failure.Some? ==>
      Finished(remote, start, end, cursor', collected', windows', pages', served', requests', cooldowns', asked', failure)
  {
    failure, cursor', collected', windows', pages', served', requests', cooldowns', asked' :=
      None, cursor, collected, windows, pages, served, requests + 1, cooldowns, asked + [NextWindow(cursor, end)];
    var window := NextWindow(cursor, end);
    var result := RequestWindow(remote, requests, window);
    match result {
      case Ok(page) =>
        ProgressAnswered(remote, start, end, cursor, collected, windows, pages, served, requests, page);
        AskedAnswered(remote, cursor, end, windows, served, asked);
        collected' := collected + page;
        windows', pages', served' := windows + [window], pages + [page], served + [requests];
        cursor' := window.hi;
      case Err(e) =>
        ProgressUnanswered(remote, start, end, cursor, collected, windows, pages, served, requests);
        if e == ApiException {
          // sleep(60), then the same window again
          CooldownBeforeQuiet(remote, quietAfter, requests, window);
          AskedCooldown(remote, cursor, end, windows, served, asked);
          cooldowns' := cooldowns + 1;
        } else {
          failure := Some(e);
          assert asked'[..requests] == asked;
        }
    }
  }

  /**
   * `fetch_historical_data`: paginate from the start time to now, then shape
   * the candles into the candle table. The clock is read twice: `startedAt`
   * when "N years ago" is turned into a start minute, `now` for the end of
   * the range.
   */
  method FetchHistoricalData(startTime: StartTime, startedAt: int, now: int,
                             remote: (nat, Window) -> nat -> CallOutcome<seq<Kline>>, quietAfter: nat)
    returns (frame: Result<Frame, Failure>, windows: seq<Window>, pages: seq<seq<Kline>>,
             served: seq<nat>, requests: nat, cooldowns: nat, ghost asked: seq<Window>)
    requires forall n: nat, w: Window, a: nat :: quietAfter <= n ==> !remote(n, w)(a).ApiError?
    ensures |pages| == |windows| == |served| && windows <= Windows(StartMinute(startTime, startedAt), now)
    // on success, every window of the range was answered and the table holds all pages in order
    ensures frame.Ok? ==> windows == Windows(StartMinute(startTime, startedAt), now)
    ensures frame.Ok? ==> frame.value == HistoricalFrame(Flatten(pages))
    // each page is what retrying its request returned, the requests answered in order
    ensures forall i :: 0 <= i < |windows| ==>
      Retry(remote(served[i], windows[i]), DefaultRetries, true, 0).result == Ok(pages[i])
    ensures forall i, j :: 0 <= i < j < |served| ==> served[i] < served[j]
    // a failure is the plain exception of the last request, for the first window not answered
    ensures frame.Err? ==>
      frame.error == RetriesExhausted && requests > 0 && |windows| < |Windows(StartMinute(startTime, startedAt), now)|
    ensures frame.Err? ==>
      Retry(remote(requests - 1, Windows(StartMinute(startTime, startedAt), now)[|windows|]), DefaultRetries, true, 0).result
        == Err(RetriesExhausted)
    // requests are numbered from 0: one per answered window, one per cooldown, and a failing last one
    ensures forall i :: 0 <= i < |served| ==> served[i] < requests
    ensures requests == |windows| + cooldowns + (if frame.Err? then 1 else 0)
    // request n asked for `asked[n]`; every request neither answered nor the failing last one
    // ended in an exchange API error, and the next request asked for the same window again
    ensures |asked| == requests
    ensures forall i :: 0 <= i < |served| ==> asked[served[i]] == windows[i]
    ensures frame.Err? ==> asked[requests - 1] == Windows(StartMinute(startTime, startedAt), now)[|windows|]
    ensures forall n :: 0 <= n < requests && n !in served && (frame.Ok? || n < requests - 1) ==>
      Retry(remote(n, asked[n]), DefaultRetries, true, 0).result == Err(ApiException)
      && n + 1 < requests && asked[n + 1] == asked[n]
  {
    var klines;
    klines, windows, pages, served, requests, cooldowns, asked :=
      Paginate(StartMinute(startTime, startedAt), now, remote, quietAfter);
    frame := match klines
      case Ok(ks) => Ok(HistoricalFrame(ks))
      case Err(e) => Err(e);
  }
}

=== FILE: price_stream.dfy ===
/**
 * The live price window of the trading application: every trade tick pushes
 * one price into a bounded buffer, and whenever the buffer holds exactly
 * `SeqLength` prices the whole window is handed to the prediction model.
 * The historical pre-fill appends closing prices WITHOUT trimming, so after it
 * the buffer may hold more than `SeqLength` prices, and from then on pushes
 * keep that length and never reach the model.
 */
module PriceStream {
  import opened Wrappers
  import opened Klines

  /** Length of the window the model expects. */
  const SeqLength: nat := 50

  /** The buffer after one tick: append at the tail; if that makes it too long, drop the head. */
  function Pushed(buffer: seq<real>, price: real): (r: seq<real>)
    // the new price is last, and r is a suffix of buffer + [price] ...
    ensures |r| > 0 && r[|r| - 1] == price
    ensures |r| <= |buffer| + 1 && r == (buffer + [price])[|buffer| + 1 - |r|..]
    // ... that loses its head exactly when the buffer was already at capacity or beyond
    ensures |r| == if |buffer| < SeqLength then |buffer| + 1 else |buffer|
  {
    var appended := buffer + [price];
    if |appended| > SeqLength then appended[1..] else appended
  }

  /** `r` is the tail end of `s`. */
  predicate IsSuffix(r: seq<real>, s: seq<real>)
  {
    |r| <= |s| && r == s[|s| - |r|..]
  }

  /** Pushing a price onto a tail end of a stream gives a tail end of the longer stream. */
  lemma PushedSuffix(before: seq<real>, stream: seq<real>, price: real)
    requires IsSuffix(before, stream)
    ensures IsSuffix(Pushed(before, price), stream + [price])
  {
    var r := Pushed(before, price);
    var longer := stream + [price];
    assert before + [price] == longer[|stream| - |before|..];
    assert r == longer[|longer| - |r|..];
  }

  /** The buffer after pushing `prices` one at a time, in order. */
  function Replay(buffer: seq<real>, prices: seq<real>): (r: seq<real>)
    // the buffer always holds the latest part of everything seen, the newest price last
    ensures IsSuffix(r, buffer + prices)
    ensures prices != [] ==> |r| > 0 && r[|r| - 1] == prices[|prices| - 1]
    decreases |prices|
  {
    if prices == [] then
      assert buffer + prices == buffer;
      buffer
    else
      var front, price := prices[..|prices| - 1], prices[|prices| - 1];
      var before := Replay(buffer, front);
      PushedSuffix(before, buffer + front, price);
      assert buffer + prices == (buffer + front) + [price];
      Pushed(before, price)
  }

  /** The last `SeqLength` elements of `s`, or all of `s` when it is shorter. */
  function LastWindow(s: seq<real>): seq<real>
  {
    if |s| <= SeqLength then s else s[|s| - SeqLength..]
  }

  /** The closing price (field 4) of every kline, in order. */
  function Closes(klines: seq<Kline>): seq<real>
  {
    seq(|klines|, i requires 0 <= i < |klines| => klines[i].close)
  }

  /** One more price: the last window of the longer sequence is the pushed last window. */
  lemma LastWindowSnoc(front: seq<real>, x: real)
    ensures LastWindow(front + [x]) == Pushed(LastWindow(front), x)
  {
    if |front| >= SeqLength {
      var w := front[|front| - SeqLength..];
      assert Pushed(w, x) == (w + [x])[1..];
      assert (w + [x])[1..] == (front + [x])[|front| + 1 - SeqLength..];
    }
  }

  /** Starting from an empty buffer, the buffer always holds the last SeqLength pushed prices, in push order. */
  lemma {:induction false} ReplayFromEmpty(prices: seq<real>)
    ensures Replay([], prices) == LastWindow(prices)
    decreases |prices|
  {
    if prices != [] {
      var front, x := prices[..|prices| - 1], prices[|prices| - 1];
      ReplayFromEmpty(front);
      LastWindowSnoc(front, x);
      assert prices == front + [x];
    }
  }

  /** A push keeps a buffer within capacity and keeps the length of a buffer at or beyond capacity. */
  lemma PushedLength(buffer: seq<real>, price: real)
    ensures |buffer| <= SeqLength ==> |Pushed(buffer, price)| <= SeqLength
    ensures |buffer| >= SeqLength ==> |Pushed(buffer, price)| == |buffer|
  {
  }

  /**
   * A buffer that starts within capacity stays within capacity; a buffer at or
   * beyond capacity keeps its length on every later push.
   */
  lemma {:induction false} ReplayLength(buffer: seq<real>, prices: seq<real>)
    ensures |buffer| <= SeqLength ==> |Replay(buffer, prices)| <= SeqLength
    ensures |buffer| >= SeqLength ==> |Replay(buffer, prices)| == |buffer|
    decreases |prices|
  {
    if prices != [] {
      var front, x := prices[..|prices| - 1], prices[|prices| - 1];
      ReplayLength(buffer, front);
      PushedLength(Replay(buffer, front), x);
    }
  }

  /**
   * From an empty buffer, the k-th push (counting from 1) leaves a full window,
   * and so reaches the model, exactly when k >= SeqLength; before that the
   * buffer holds all k prices.
   */
  lemma FiresFromFullWindowOn(prices: seq<real>, k: nat)
    requires k <= |prices|
    ensures |Replay([], prices[..k])| == SeqLength <==> k >= SeqLength
    ensures k < SeqLength ==> Replay([], prices[..k]) == prices[..k]
  {
    ReplayFromEmpty(prices[..k]);
  }

  /** Concretely: the 51st push evicts the first price, keeping prices 2..51. */
  lemma FiftyFirstPushEvictsFirst(prices: seq<real>)
    requires |prices| == SeqLength + 1
    ensures Replay([], prices) == prices[1..]
    ensures Replay([], prices[..SeqLength]) == prices[..SeqLength]
  {
    ReplayFromEmpty(prices);
    ReplayFromEmpty(prices[..SeqLength]);
  }

  /**
   * The pre-fill quirk: appending SeqLength closes to a non-empty buffer makes
   * it longer than SeqLength, and afterwards every push keeps that length, so
   * no later push ever presents a full window to the model.
   */
  lemma {:induction false} OverfullBufferNeverFires(buffer: seq<real>, klines: seq<Kline>, later: seq<real>, k: nat)
    requires |buffer| > 0 && |klines| == SeqLength
    requires k <= |later|
    ensures |buffer + Closes(klines)| > SeqLength
    ensures |Replay(buffer + Closes(klines), later[..k])| == |buffer| + SeqLength
    ensures |Replay(buffer + Closes(klines), later[..k])| != SeqLength
  {
    ReplayLength(buffer + Closes(klines), later[..k]);
  }

  /**
   * The live buffer (`price_buffer`) together with the loaded model. The model
   * is an uninterpreted function from a window, oldest price first, to one
   * predicted price.
   */
  class PriceBuffer {
    var prices: seq<real>
    const predict: seq<real> -> real

    constructor (predict: seq<real> -> real)
      ensures prices == [] && this.predict == predict
    {
      prices := [];
      this.predict := predict;
    }

    /** One price tick: update the window and, when it is exactly full, ask the model once. */
    method Push(price: real) returns (prediction: Option<real>)
      modifies this
      ensures prices == Pushed(old(prices), price)
      ensures prediction == if |prices| == SeqLength then Some(predict(prices)) else None
    {
      prices := prices + [price];
      if |prices| > SeqLength {
        prices := prices[1..];
      }
      if |prices| == SeqLength {
        prediction := Some(predict(prices));
      } else {
        prediction := None;
      }
    }

    /**
     * The websocket callback: a message carries its price under key "p"; a
     * message without it is reported and leaves the buffer as it was.
     */
    method HandleRealtimeData(data: map<string, real>) returns (prediction: Option<real>)
      modifies this
      ensures "p" !in data ==> prices == old(prices) && prediction == None
      ensures "p" in data ==> prices == Pushed(old(prices), data["p"])
      ensures "p" in data ==> prediction == if |prices| == SeqLength then Some(predict(prices)) else None
    {
      if "p" in data {
        prediction := Push(data["p"]);
      } else {
        prediction := None;
      }
    }

    /**
     * The historical pre-fill: the close of every fetched kline is appended,
     * with no trimming. When the fetch failed (None) the application stops and
     * the buffer is untouched.
     */
    method ExtendWithHistory(fetched: Option<seq<Kline>>) returns (proceed: bool)
      modifies this
      ensures proceed == fetched.Some?
      ensures fetched.Some? ==> prices == old(prices) + Closes(fetched.value)
      ensures fetched.None? ==> prices == old(prices)
    {
      if fetched.Some? {
        prices := prices + Closes(fetched.value);
        proceed := true;
      } else {
        proceed := false;
      }
    }
  }
}

=== FILE: retry.dfy ===
/**
 * `retry_request`: call a remote operation up to `retries` times. A read
 * timeout waits `delay` seconds and tries again; any other error stops at
 * once; both ways of giving up raise the same plain exception.
 *
 * The remote operation is given as `call`, where `call(i)` is how the
 * (i+1)-th invocation ends. `Retry` is the function with the HTTP library
 * imported, which the module as written does not do (`RetryAsWritten` is the
 * code exactly as written: every failure raises NameError). Within `Retry`,
 * `reraiseApi` selects between line 25 as written (false: an exchange API
 * error is swallowed like any other error and turned into the plain
 * exception) and the corrected behaviour the callers rely on (true: an
 * exchange API error reaches the caller as such).
 */
module RetryPolicy {
  import opened Wrappers

  /** How one invocation of the remote call ends. */
  datatype CallOutcome<+T> =
    | Answered(value: T)
    | Timeout        // the HTTP library's read timeout
    | ApiError       // an error reported by the exchange API
    | OtherError     // any other exception

  /** What retrying produced, and how many times the remote call was invoked. */
  datatype Retried<+T> = Retried(result: Result<T, Failure>, calls: nat)

  /** The default budget and delay of `retry_request`. */
  const DefaultRetries: int := 5
  const DelaySeconds: nat := 10

  function Max(a: int, b: int): int { if a < b then b else a }

  /**
   * Retrying from attempt index `attempt` on: the value of the first
   * successful invocation, or a failure.
   */
  function Retry<T>(call: nat -> CallOutcome<T>, retries: int, reraiseApi: bool, attempt: nat): (r: Retried<T>)
    // never more invocations than the budget allows
    ensures attempt <= r.calls <= Max(retries, attempt)
    // the caller sees the plain exception, or (corrected only) the exchange API error
    ensures r.result.Err? ==> r.result.error == RetriesExhausted || (reraiseApi && r.result.error == ApiException)
    decreases retries - attempt
  {
    if attempt >= retries then Retried(Err(RetriesExhausted), attempt)
    else
      match call(attempt)
      case Answered(v) => Retried(Ok(v), attempt + 1)
      case Timeout => Retry(call, retries, reraiseApi, attempt + 1)
      case ApiError => Retried(Err(if reraiseApi then ApiException else RetriesExhausted), attempt + 1)
      case OtherError => Retried(Err(RetriesExhausted), attempt + 1)
  }

  /** Only timeouts are retried, and a value comes from the last invocation. */
  lemma {:induction false} RetryBounds<T>(call: nat -> CallOutcome<T>, retries: int, reraiseApi: bool, attempt: nat)
    // every invocation but the last one timed out
    ensures var r := Retry(call, retries, reraiseApi, attempt);
      forall i :: attempt <= i < r.calls - 1 ==> call(i).Timeout?
    // a returned value is the result of the last invocation
    ensures var r := Retry(call, retries, reraiseApi, attempt);
      r.result.Ok? ==> attempt < r.calls && call(r.calls - 1) == Answered(r.result.value)
    decreases retries - attempt
  {
    if attempt < retries && call(attempt).Timeout? {
      RetryBounds(call, retries, reraiseApi, attempt + 1);
    }
  }

  /** k timeouts followed by a success, within budget: the success's value after exactly k+1 invocations. */
  lemma {:induction false} RetrySucceedsAfterTimeouts<T>(call: nat -> CallOutcome<T>, retries: int, reraiseApi: bool, attempt: nat, k: nat)
    requires attempt <= k < retries
    requires forall i :: attempt <= i < k ==> call(i).Timeout?
    requires call(k).Answered?
    ensures Retry(call, retries, reraiseApi, attempt) == Retried(Ok(call(k).value), k + 1)
    decreases k - attempt
  {
    if attempt < k {
      RetrySucceedsAfterTimeouts(call, retries, reraiseApi, attempt + 1, k);
    }
  }

  /** Nothing but timeouts: the plain exception, after exactly `retries` invocations. */
  lemma {:induction false} RetryExhausts<T>(call: nat -> CallOutcome<T>, retries: int, reraiseApi: bool, attempt: nat)
    requires forall i :: attempt <= i < retries ==> call(i).Timeout?
    ensures Retry(call, retries, reraiseApi, attempt) == Retried(Err(RetriesExhausted), Max(retries, attempt))
    decreases retries - attempt
  {
    if attempt < retries {
      RetryExhausts(call, retries, reraiseApi, attempt + 1);
    }
  }

  /**
   * k timeouts followed by any other error, within budget: no further
   * invocation. With the HTTP library imported and line 25 as written, the
   * failure is the same plain exception as exhaustion; with `reraiseApi` an
   * exchange API error is passed on instead.
   */
  lemma {:induction false} RetryStopsOnError<T>(call: nat -> CallOutcome<T>, retries: int, reraiseApi: bool, attempt: nat, k: nat)
    requires attempt <= k < retries
    requires forall i :: attempt <= i < k ==> call(i).Timeout?
    requires call(k).ApiError? || call(k).OtherError?
    ensures Retry(call, retries, reraiseApi, attempt).calls == k + 1
    ensures !reraiseApi ==> Retry(call, retries, reraiseApi, attempt).result == Err(RetriesExhausted)
    ensures reraiseApi ==> Retry(call, retries, reraiseApi, attempt).result
                           == Err(if call(k).ApiError? then ApiException else RetriesExhausted)
    decreases k - attempt
  {
    if attempt < k {
      RetryStopsOnError(call, retries, reraiseApi, attempt + 1, k);
    }
  }

  /** With the correction, an exchange API error reaching the caller was answered by the last invocation. */
  lemma {:induction false} ApiExceptionComesFromRemote<T>(call: nat -> CallOutcome<T>, retries: int, attempt: nat)
    requires Retry(call, retries, true, attempt).result == Err(ApiException)
    ensures attempt < Retry(call, retries, true, attempt).calls
    ensures call(Retry(call, retries, true, attempt).calls - 1).ApiError?
    decreases retries - attempt
  {
    if attempt < retries && call(attempt).Timeout? {
      ApiExceptionComesFromRemote(call, retries, attempt + 1);
    }
  }

  /**
   * The loop of `retry_request`, proved to compute `Retry`. `waits` counts the
   * delays slept: one after every timed-out invocation.
   */
  method RetryRequest<T>(call: nat -> CallOutcome<T>, retries: int, reraiseApi: bool)
    returns (result: Result<T, Failure>, calls: nat, waits: nat)
    ensures Retried(result, calls) == Retry(call, retries, reraiseApi, 0)
    ensures waits == if calls > 0 && !call(calls - 1).Timeout? then calls - 1 else calls
  {
    calls, waits := 0, 0;
    while calls < retries
      invariant Retry(call, retries, reraiseApi, calls) == Retry(call, retries, reraiseApi, 0)
      invariant forall i :: 0 <= i < calls ==> call(i).Timeout?
      invariant waits == calls
      decreases retries - calls
    {
      var outcome := call(calls);
      calls := calls + 1;
      match outcome {
        case Answered(v) =>
          result := Ok(v);
          return;
        case Timeout =>
          waits := waits + 1;  // sleep(delay) before the next attempt
        case ApiError =>
          if reraiseApi {
            result := Err(ApiException);
            return;
          }
          break;
        case OtherError =>
          break;
      }
    }
    result := Err(RetriesExhausted);
  }

  /**
   * `retry_request` as written: the module never imports the HTTP library, so
   * the first failure of the remote call raises NameError while the handler
   * clause that names the library's timeout class is evaluated. No failure is
   * ever retried.
   */
  function RetryAsWritten<T>(call: nat -> CallOutcome<T>, retries: int): (r: Retried<T>)
    ensures r.calls == if retries > 0 then 1 else 0
    ensures retries > 0 ==> (r.result.Ok? <==> call(0).Answered?)
    ensures retries > 0 && call(0).Answered? ==> r.result == Ok(call(0).value)
    ensures retries > 0 && r.result.Err? ==> r.result.error == NameError
    // no budget: the loop is skipped and the plain exception raised
    ensures retries <= 0 ==> r.result == Err(RetriesExhausted)
  {
    if retries <= 0 then Retried(Err(RetriesExhausted), 0)
    else
      match call(0)
      case Answered(v) => Retried(Ok(v), 1)
      case _ => Retried(Err(NameError), 1)
  }

  /** One timeout, then a success: as written the caller gets NameError; intended is the value. */
  lemma MissingImportCounterexample()
    ensures RetryAsWritten((i: nat) => if i == 0 then Timeout else Answered(7), DefaultRetries) == Retried(Err(NameError), 1)
    ensures Retry((i: nat) => if i == 0 then Timeout else Answered(7), DefaultRetries, false, 0) == Retried(Ok(7), 2)
  {
    var call := (i: nat) => if i == 0 then Timeout else Answered(7);
    RetrySucceedsAfterTimeouts(call, DefaultRetries, false, 0, 1);
  }

  /**
   * An exchange API error on the first call: with the HTTP library imported
   * and line 25 as written, the caller gets the plain exception.
   */
  lemma SwallowedApiErrorCounterexample()
    ensures Retry<int>((i: nat) => ApiError, DefaultRetries, false, 0) == Retried(Err(RetriesExhausted), 1)
    ensures Retry<int>((i: nat) => ApiError, DefaultRetries, true, 0) == Retried(Err(ApiException), 1)
  {
  }
}

=== FILE: strategy.dfy ===
/**
 * `Strategy.calculate_entry`: the entry level of a trade at the current price,
 * a stop-loss level a given percentage below it and a take-profit level a
 * given percentage above it. Prices and percentages are exact reals.
 */
module Strategy {

  /** The three levels of the returned dictionary. */
  datatype Levels = Levels(entry: real, stopLoss: real, takeProfit: real)

  function CalculateEntry(price: real, stopLossPercentage: real, takeProfitPercentage: real): (levels: Levels)
    // the entry is the price itself
    ensures levels.entry == price
    // the stop-loss keeps (100 - stop) percent of the price, the take-profit (100 + take) percent
    ensures levels.stopLoss == price * (100.0 - stopLossPercentage) / 100.0
    ensures levels.takeProfit == price * (100.0 + takeProfitPercentage) / 100.0
  {
    Levels(price,
           price - (price * stopLossPercentage / 100.0),
           price + (price * takeProfitPercentage / 100.0))
  }

  /** For a non-negative price and percentages the levels are ordered: stop-loss, entry, take-profit. */
  lemma LevelsOrdered(price: real, stopLossPercentage: real, takeProfitPercentage: real)
    requires price >= 0.0 && stopLossPercentage >= 0.0 && takeProfitPercentage >= 0.0
    ensures var levels := CalculateEntry(price, stopLossPercentage, takeProfitPercentage);
      levels.stopLoss <= levels.entry <= levels.takeProfit
    // a stop-loss of at most 100 percent is never below zero
    ensures stopLossPercentage <= 100.0 ==> CalculateEntry(price, stopLossPercentage, takeProfitPercentage).stopLoss >= 0.0
  {
  }

  /** A zero percentage puts the corresponding level at the price. */
  lemma ZeroPercentageIsThePrice(price: real, stopLossPercentage: real, takeProfitPercentage: real)
    ensures stopLossPercentage == 0.0 ==> CalculateEntry(price, stopLossPercentage, takeProfitPercentage).stopLoss == price
    ensures takeProfitPercentage == 0.0 ==> CalculateEntry(price, stopLossPercentage, takeProfitPercentage).takeProfit == price
  {
  }

  /** The percentages can be read back from the levels of a non-zero price: the distance to the entry, in percent of it. */
  lemma PercentagesRecovered(price: real, stopLossPercentage: real, takeProfitPercentage: real)
    requires price != 0.0
    ensures var levels := CalculateEntry(price, stopLossPercentage, takeProfitPercentage);
      (levels.entry - levels.stopLoss) * 100.0 / levels.entry == stopLossPercentage
      && (levels.takeProfit - levels.entry) * 100.0 / levels.entry == takeProfitPercentage
  {
    var levels := CalculateEntry(price, stopLossPercentage, takeProfitPercentage);
    assert levels.entry - levels.stopLoss == price * stopLossPercentage / 100.0;
    assert levels.takeProfit - levels.entry == price * takeProfitPercentage / 100.0;
  }

  /** The trading application's call: 2 percent stop-loss, 4 percent take-profit. */
  lemma ApplicationLevels(price: real)
    ensures CalculateEntry(price, 2.0, 4.0) == Levels(price, price * 0.98, price * 1.04)
  {
  }
}

=== FILE: trained_files_log.dfy ===
/**
 * The training script's log of the data files it has trained on: a set of
 * file names kept in a text file, one name per line. Loading splits the text
 * at line boundaries; saving joins the names with newlines. The script trains
 * only on files not yet in the log and rewrites the log after the model is
 * saved.
 *
 * The file is modelled by its contents: `None` when it does not exist.
 */
module TrainedFilesLog {
  import opened Wrappers
  import DataPreparation

  /** The characters Python's `str.splitlines` breaks at. */
  predicate IsLineBreak(c: char)
  {
    || c == '\n' || c == '\r'
    || c == '\U{B}' || c == '\U{C}'                      // vertical tab, form feed
    || c == '\U{1C}' || c == '\U{1D}' || c == '\U{1E}'   // file, group and record separators
    || c == '\U{85}' || c == '\U{2028}' || c == '\U{2029}'
  }

  /** A string holding no line-break character. */
  predicate OneLine(s: string)
  {
    forall i :: 0 <= i < |s| ==> !IsLineBreak(s[i])
  }

  /** The index of the first line break in `s`, or |s| when there is none. */
  function FirstBreak(s: string): (k: nat)
    ensures k <= |s| && OneLine(s[..k])
    ensures k < |s| ==> IsLineBreak(s[k])
    decreases |s|
  {
    if s == [] || IsLineBreak(s[0]) then 0
    else
      var k := 1 + FirstBreak(s[1..]);
      assert forall i :: 1 <= i < k ==> s[i] == s[1..][i - 1];
      k
  }

  /**
   * `str.splitlines()`: the lines of `s` without their breaks. "\r\n" is one
   * break, and a break at the very end starts no further line.
   */
  function SplitLines(s: string): (lines: seq<string>)
    // no line holds a break, and only the empty text has no line
    ensures forall line :: line in lines ==> OneLine(line)
    ensures lines == [] <==> s == []
    decreases |s|
  {
    if s == [] then []
    else
      var k := FirstBreak(s);
      if k == |s| then [s]
      else
        var width := if s[k] == '\r' && k + 1 < |s| && s[k + 1] == '\n' then 2 else 1;
        [s[..k]] + SplitLines(s[k + width..])
  }

  /**
   * `"\n".join(names)`: starts with the first name, and is a single line
   * exactly when there is at most one name and it is a single line.
   */
  function JoinLines(names: seq<string>): (joined: string)
    ensures names != [] ==> names[0] <= joined
    ensures OneLine(joined) <==> |names| <= 1 && forall i :: 0 <= i < |names| ==> OneLine(names[i])
  {
    if |names| == 0 then ""
    else if |names| == 1 then names[0]
    else
      var joined := names[0] + "\n" + JoinLines(names[1..]);
      assert IsLineBreak(joined[|names[0]|]);
      joined
  }

  /** `load_trained_files_log`: the set of the log's lines, or the empty set when there is no log. */
  function LoadTrainedFilesLog(content: Option<string>): (names: set<string>)
    ensures content.None? ==> names == {}
    ensures forall n :: n in names ==> OneLine(n)
    ensures content.Some? ==> forall line :: line in SplitLines(content.value) <==> line in names
  {
    match content
    case None => {}
    case Some(text) =>
      set line | line in SplitLines(text)
  }

  /** Joining one more name adds a newline and the name at the end. */
  lemma {:induction false} JoinLinesSnoc(names: seq<string>, name: string)
    ensures JoinLines(names + [name]) == if names == [] then name else JoinLines(names) + "\n" + name
    decreases |names|
  {
    if |names| >= 2 {
      var rest := names[1..];
      assert (names + [name])[1..] == rest + [name];
      JoinLinesSnoc(rest, name);
      assert JoinLines(names + [name]) == names[0] + "\n" + JoinLines(rest + [name]);
    }
  }

  /** The first break after a one-line name followed by a newline is that newline. */
  lemma FirstBreakAfterName(name: string, rest: string)
    requires OneLine(name)
    ensures FirstBreak(name + "\n" + rest) == |name|
  {
    var s := name + "\n" + rest;
    assert s[..|name|] == name && s[|name|] == '\n';
  }

  /**
   * Splitting what was joined gives the names back, when no name holds a
   * line break and the last one is not empty.
   */
  lemma {:induction false} SplitJoin(names: seq<string>)
    requires forall i :: 0 <= i < |names| ==> OneLine(names[i])
    requires names != [] ==> names[|names| - 1] != ""
    ensures SplitLines(JoinLines(names)) == names
    decreases |names|
  {
    if |names| >= 2 {
      var first, rest := names[0], JoinLines(names[1..]);
      var s := first + "\n" + rest;
      FirstBreakAfterName(first, rest);
      assert s[..|first|] == first && s[|first|] == '\n' && s[|first| + 1..] == rest;
      assert SplitLines(s) == [first] + SplitLines(rest);
      SplitJoin(names[1..]);
      assert names == [first] + names[1..];
    }
  }

  /** The set round trip: a log saved in any order loads as the same set of plain names. */
  lemma LoadWhatWasSaved(names: set<string>, order: seq<string>)
    requires forall n :: n in names ==> n != "" && OneLine(n)
    requires forall n :: n in order <==> n in names
    ensures LoadTrainedFilesLog(Some(JoinLines(order))) == names
  {
    SplitJoin(order);
  }

  /** An empty name saved last is lost: ["a", ""] is written "a\n", which loads as {"a"}. */
  lemma EmptyNameSavedLastIsLost()
    ensures LoadTrainedFilesLog(Some(JoinLines(["a", ""]))) == {"a"}
  {
    var s := JoinLines(["a", ""]);
    assert s == "a\n";
    assert FirstBreak(s) == 1;
    assert s[..1] == "a" && s[2..] == [];
    assert SplitLines(s) == ["a"] + SplitLines([]);
  }

  /**
   * `save_trained_files_log`: the names joined by newlines, in the set's
   * iteration order, which is left open: `order` is the order chosen.
   */
  method SaveTrainedFilesLog(names: set<string>) returns (text: string, order: seq<string>)
    ensures forall n :: n in order <==> n in names
    ensures |order| == |names|
    ensures text == JoinLines(order)
    ensures WrittenAs(text, names)
    // plain names load back as exactly the set saved
    ensures (forall n :: n in names ==> n != "" && OneLine(n)) ==> LoadTrainedFilesLog(Some(text)) == names
  {
    text, order := "", [];
    var rest := names;
    while rest != {}
      invariant forall n :: n in names <==> n in rest || n in order
      invariant forall n :: n in rest ==> n !in order
      invariant |order| + |rest| == |names|
      invariant text == JoinLines(order)
      decreases |rest|
    {
      var n :| n in rest;
      JoinLinesSnoc(order, n);
      text := if order == [] then n else text + "\n" + n;
      order, rest := order + [n], rest - {n};
    }
    assert WrittenAs(text, names);
    if forall n :: n in names ==> n != "" && OneLine(n) {
      LoadWhatWasSaved(names, order);
    }
  }

  /** `text` is `names`, each once and in some order, joined by newlines: what `SaveTrainedFilesLog` writes. */
  ghost predicate WrittenAs(text: string, names: set<string>)
  {
    exists order: seq<string> {:trigger JoinLines(order)} ::
      (forall n :: n in order <==> n in names) && |order| == |names| && text == JoinLines(order)
  }

  /** The training script's window length. */
  const SequenceLength: nat := 50

  /** What the training script wrote to disk, in order. */
  datatype Event = ModelSaved | LogWritten

  /** The script's working directory: the log's contents and the writes made so far. */
  class Workspace {
    var log: Option<string>
    var events: seq<Event>

    constructor (log: Option<string>)
      ensures this.log == log && events == []
    {
      this.log := log;
      events := [];
    }

    /**
     * One run of the training script over the data folder `files`. With no
     * new file it stops before training and writes nothing; when preparing
     * the data fails it writes nothing either. Otherwise it saves the model
     * and only then rewrites the log with the old names and the new ones.
     * The result is the names of the files trained on.
     */
    method Train(files: seq<DataPreparation.CsvFile>, fit: seq<real> -> (real -> real))
      returns (trainedOn: Result<seq<string>, Failure>)
      modifies this
      ensures var before := LoadTrainedFilesLog(old(log));
        trainedOn == Ok(DataPreparation.NewFiles(files, before)) || trainedOn == Err(ValueError)
      // preparing the data fails exactly when the new files hold no price at all
      ensures var before := LoadTrainedFilesLog(old(log));
        trainedOn.Err? <==> DataPreparation.CloseSeries(files, before) == [] && DataPreparation.NewFiles(files, before) != []
      ensures trainedOn.Err? || trainedOn.value == [] ==> log == old(log) && events == old(events)
      ensures trainedOn.Ok? && trainedOn.value != [] ==>
        events == old(events) + [ModelSaved, LogWritten] && log.Some?
      // the new log is the old names and the new files, each once, joined by newlines ...
      ensures trainedOn.Ok? && trainedOn.value != [] ==>
        var after := LoadTrainedFilesLog(old(log)) + set n | n in trainedOn.value;
        log.Some? && WrittenAs(log.value, after)
      // ... and, when every name is non-empty and on one line, it loads as exactly those names
      ensures trainedOn.Ok? && trainedOn.value != [] ==>
        var after := LoadTrainedFilesLog(old(log)) + set n | n in trainedOn.value;
        (forall n :: n in after ==> n != "" && OneLine(n)) ==> LoadTrainedFilesLog(log) == after
    {
      var trained := LoadTrainedFilesLog(log);
      var prepared := DataPreparation.PrepareData(files, SequenceLength, trained, fit);
      if prepared.Err? {
        return Err(prepared.error);
      }
      var newFiles := prepared.value.newFiles;
      if newFiles == [] {
        return Ok([]);
      }
      // model.fit(X, y, ...) and model.save(...)
      events := events + [ModelSaved];
      trained := trained + set n | n in newFiles;
      var text, order := SaveTrainedFilesLog(trained);
      log := Some(text);
      events := events + [LogWritten];
      trainedOn := Ok(newFiles);
    }
  }
}

=== FILE: wrappers.dfy ===
/** Option and Result, and the exceptions of the modelled code as values. */
module Wrappers {

  datatype Option<+T> = None | Some(value: T)

  datatype Result<+T, +E> = Ok(value: T) | Err(error: E)

  /** The exceptions the modelled code raises, named after the Python class that carries them. */
  datatype Failure =
    | RetriesExhausted     // the plain Exception raised when retry_request gives up
    | ApiException         // the exchange client's BinanceAPIException
    | NameError            // evaluating a module name that was never imported
    | KeyError(key: string)
    | TypeError            // a call passing an argument the callee does not accept
    | ValueError           // the scaler fitted on no rows
}
